=== FILE: README.md ===
# Group-interview discussion panel, modelled in Dafny

The application simulates a group interview. The human participant
discusses a topic with three scripted characters, and a text generator
writes the characters' replies. This project models the logic of the
discussion itself:

- **The session state machine** of the discussion panel
  (`components/DiscussionPanel.tsx`). Each handler is a pure transition
  from one `Session.State` to the next. A transition also returns the
  asynchronous work it starts (`Session.Effect`): a reply to await, a
  timer that starts a turn, or the timer that lowers the interruption
  banner. `SessionRun` gathers the state and its pending work into a
  `World`. Pending entries may fire in any order, so a property proved
  over every `Run` holds for every timing of the timers and every
  latency of the reply service.
- **The deterministic parts of the generator service**
  (`services/geminiService.ts`):
  - prompt assembly by first-occurrence placeholder replacement;
  - the five-message history window and the `name: content` line format;
  - reply normalisation;
  - topic sanitisation;
  - which failures become a placeholder and which are rethrown.
- **The roster and the system-prompt template** (`constants.ts`).

Randomness (`Math.random()`), the clock (`Date.now()`) and the
provider's answer are parameters:

- a draw is a real in [0, 1);
- the provider is a function from prompt text to `Answered(text)` or
  `Rejected`;
- whether the client can be built is a `ClientStatus`.

The ECMAScript built-ins the code relies on are written out over
`seq<char>` in `JsString`:

- `trim`, with the full WhiteSpace and LineTerminator set;
- `indexOf`;
- `replace` with a string pattern, including its `$` substitutions;
- `join`;
- the decimal `toString` of a non-negative integer.

Files:

- `wrappers.dfy` — `Option`, `Result`.
- `types.dfy` — `Character`, `Message`, `Role`.
- `js_string.dfy` — the ECMAScript string built-ins above.
- `roster.dfy` — `CHARACTERS`, `SYSTEM_PROMPT_BASE` and the facts about
  them.
- `prompt.dfy` — the generator service.
- `dictation.dfy` — folding one recognition event into text.
- `session.dfy` — the panel's handlers.
- `session_run.dfy` — runs of the panel and their invariants.
- `stale_closures.dfy` — the handlers as written, reading the render
  they were created in (see Findings).

The main model reads the live state in every guard. The one exception is
the chain check after a reply, which reads the round the turn started
with, as the code does (`SessionRun.ChainCheckIsMoot` shows that this
check never fails). The code's handlers read the state of an earlier
render. Where that makes a difference, the difference is exhibited under
"Findings".

## Model

| member | source | states |
|---|---|---|
| JsString.Trim | services/geminiService.ts:42 | `trim()`: the result has no white space at either end, and it is empty exactly when the input is all white space |
| JsString.TrimIsMiddle | components/DiscussionPanel.tsx:156 | every string splits into white space, its trimmed form, and white space |
| JsString.TrimUnique | components/DiscussionPanel.tsx:156 | whatever way a string splits into white space, a middle that does not start or end with white space, and white space, that middle is the trimmed form |
| JsString.TrimIdempotent | services/geminiService.ts:42 | trimming twice is trimming once |
| JsString.IndexOf | services/geminiService.ts:19-23 | `indexOf`: the least index where the pattern occurs; none exactly when it occurs nowhere |
| JsString.SubstitutionLiteral | services/geminiService.ts:19-23 | a replacement text without `$` is inserted verbatim |
| JsString.ReplaceAbsent | services/geminiService.ts:19-23 | `replace` with a pattern that does not occur changes nothing |
| JsString.ReplaceAt | services/geminiService.ts:19-23 | `replace` rewrites the first occurrence only: in `a + pat + b`, with no earlier occurrence, the result is `a + rep + b` |
| JsString.JoinConcat | services/geminiService.ts:26 | `join` of a concatenation is the two joins with one more separator between them |
| JsString.NumberToString | components/DiscussionPanel.tsx:111 | `toString` of a clock reading: decimal digits, no leading zero, and reading them back gives the number |
| Roster.RosterShape | constants.ts:4-29 | exactly three characters with ids `char1`, `char2`, `char3`, pairwise distinct, none equal to the human's id `user` |
| Roster.OpenerIsFirst | components/DiscussionPanel.tsx:86 | only the first character is AGGRESSIVE, so `find(AGGRESSIVE) \|\| CHARACTERS[0]` is `char1` |
| Roster.FindByRole | components/DiscussionPanel.tsx:86 | `find` by role: the first character with that role, none exactly when no character has it |
| Roster.ExcludeId | components/DiscussionPanel.tsx:143 | `filter` by id: exactly the characters with a different id |
| Roster.ExcludeIdConcat | components/DiscussionPanel.tsx:143 | the filter works piece by piece, so the kept characters stay in their roster order |
| Roster.OthersCount | components/DiscussionPanel.tsx:143-144 | excluding any id leaves at least two candidates, and exactly two for a roster id, all of them on the roster and none with that id |
| Roster.RosterTextPlain | constants.ts:4-29 | no roster name or personality contains `{` or `$` |
| Roster.TemplateSlots | constants.ts:31-44 | `{jobTitle}`, `{topic}`, `{characterName}` and `{characterPersonality}` each occur once in the template, at known places, and no other placeholder occurs |
| Roster.NoRoleSlot | constants.ts:31-44 | `{characterRole}` does not occur in the template |
| Prompt.FillTemplateShape | services/geminiService.ts:19-23 | filling the template with values free of `{` and `$` puts each value where its placeholder was, the role replacement does nothing, and no `{` is left |
| Prompt.RosterFillShape | services/geminiService.ts:19-23 | for a roster character, values for the job title and topic without `{` or `$` are enough |
| Prompt.FillCapturesTopic | services/geminiService.ts:19-23 | the replacements are not hygienic: a topic that reads `{characterName}` is itself replaced by the name, and the real placeholder survives into the prompt |
| Prompt.RecentWindow | services/geminiService.ts:26 | `slice(-5)`: the last `min(n, 5)` messages, in order |
| Prompt.ShortHistoryWhole | services/geminiService.ts:26 | a history of at most five messages is seen whole |
| Prompt.HistoryTextAppend | services/geminiService.ts:26 | appending a message appends one `name: content` line after a newline |
| Prompt.WindowIsTailOfRecord | services/geminiService.ts:88 | the window a character sees is the tail of the full record the feedback request carries, in the same format |
| Prompt.NormalizeReply | services/geminiService.ts:42 | the trimmed provider text, or the fallback when it is missing or blank; never empty, never padded |
| Prompt.GenerateAIReply | services/geminiService.ts:10-47 | rejects exactly when the client cannot be built; a rejected provider call gives the thinking placeholder, an answer gives its normalised text; never empty |
| Prompt.StripMarkup | services/geminiService.ts:65 | deletes every `*`, `#`, `` ` `` and `>` and keeps every other character, as many times as it occurred |
| Prompt.StripMarkupConcat | services/geminiService.ts:65 | stripping works piece by piece, so the kept characters stay in order |
| Prompt.StripMarkupPlain | services/geminiService.ts:65 | text without markup passes through unchanged |
| Prompt.TrimKeepsClean | services/geminiService.ts:65 | trimming a markup-free text leaves it markup-free |
| Prompt.SanitizeTopic | services/geminiService.ts:65 | the stripped and trimmed text, or the fallback; never empty and free of markup |
| Prompt.GenerateTopic | services/geminiService.ts:53-70 | fails exactly when the client cannot be built or the provider rejects, and rethrows that error; otherwise the sanitised form of the provider's answer, hence a non-empty, markup-free topic |
| Prompt.GenerateFeedback | services/geminiService.ts:76-113 | fails exactly when the client cannot be built or the provider rejects, and rethrows that error; otherwise the provider's text when it is non-empty, and `{}` when it is missing or empty |
| Dictation.Pending | components/DiscussionPanel.tsx:54 | the loop visits `results.length - resultIndex` results (none when the index is past the end), the k-th being `results[resultIndex + k]` |
| Dictation.CollectTranscripts | components/DiscussionPanel.tsx:51-60 | the loop concatenates the final transcripts and the interim transcripts of the pending results, in order |
| Dictation.SplitIsPartition | components/DiscussionPanel.tsx:54-60 | every transcript character goes to exactly one of the two texts |
| Dictation.InterimOnlyIsNotFinal | components/DiscussionPanel.tsx:55-59 | results that are all interim give no final text |
| Dictation.FinalOnlyIsAll | components/DiscussionPanel.tsx:55-59 | results that are all final give no interim text |
| Session.PickIndex | components/DiscussionPanel.tsx:144 | `Math.floor(d * n)` is a valid index, the one whose interval contains `d * n` |
| Session.PickReachesAll | components/DiscussionPanel.tsx:178 | every index can be drawn |
| Session.Pick | components/DiscussionPanel.tsx:178 | a random pick is a member of the list |
| Session.ChainDelay | components/DiscussionPanel.tsx:141 | the chained delay lies in [1000, 3000) ms |
| Session.ReplyDelay | components/DiscussionPanel.tsx:180 | the delay of the reply to the human lies in [1000, 2500) ms |
| Session.StartTurn | components/DiscussionPanel.tsx:122-127 | at the ceiling nothing changes and nothing starts; below it the round rises by one, the speaker is active and typing, a reply is awaited with the current transcript, and nothing else changes |
| Session.Chain | components/DiscussionPanel.tsx:139-146 | a chained turn is scheduled exactly when the draw is below 0.45 and the turn started below the ceiling; its speaker is another roster member; its delay is in [1000, 3000) |
| Session.ChainReachesEveryOther | components/DiscussionPanel.tsx:143-144 | every other roster member can be drawn as the next speaker |
| Session.ReplySettled | components/DiscussionPanel.tsx:129-152 | the turn ends and its round stays counted; a resolved reply appends one message under the speaker's id and name and may chain; a rejected one appends nothing and schedules nothing |
| Session.CompleteTurn | components/DiscussionPanel.tsx:129-152 | a turn loses its message exactly when the client cannot be built; otherwise it appends one non-empty message from the speaker, stamped with the clock, holding the service's reply to the turn's prompt |
| Session.Submit | components/DiscussionPanel.tsx:155-181 | a blank input changes nothing; otherwise the untrimmed input is appended as the human's message, the input and interim buffers are cleared, dictation and the opener stop, the flag is raised exactly when someone is speaking, and exactly one banner timer (when someone was speaking) and then one reply from a roster member, after [1000, 2500) ms, are scheduled |
| Session.Sent | components/DiscussionPanel.tsx:160-174 | the state after a non-blank send, with round, turn and topic untouched |
| Session.SendEffects | components/DiscussionPanel.tsx:160-180 | one banner timer is scheduled exactly when someone is speaking, then exactly one reply timer, for the roster member the draw picks from the whole roster, after the drawn delay; nothing else |
| Session.SendReachesEveryone | components/DiscussionPanel.tsx:178 | every roster member can be drawn to answer a send |
| Session.InterruptTimeout | components/DiscussionPanel.tsx:162 | the banner timer lowers the flag and changes nothing else |
| Session.HearSpeech | components/DiscussionPanel.tsx:51-67 | the final text is appended to the input, the interim text replaces the interim buffer, and nothing else changes |
| Session.InterimNeverReachesInput | components/DiscussionPanel.tsx:62-66 | interim-only results leave the input as it was and land whole in the interim buffer |
| Session.DictationLosesNothing | components/DiscussionPanel.tsx:51-67 | the input only grows, and its new tail together with the interim buffer holds every dictated character exactly once |
| Session.SpeechError | components/DiscussionPanel.tsx:75-80 | dictation stays on exactly when it was on and the error is `no-speech`; nothing else changes |
| Session.ToggleListening | components/DiscussionPanel.tsx:97-107 | flips dictation, never touches the input or interim buffers, and starting it cancels the opener |
| Session.OpenerFire | components/DiscussionPanel.tsx:83-89 | fires once; `char1` starts a turn exactly when the opener is still armed, there are no messages, dictation is off, the input is empty and the ceiling is not reached; then the round rises by one and `char1` is active and typing, otherwise only the timer is disarmed |
| Session.Edit | components/DiscussionPanel.tsx:246 | the input becomes the typed text and nothing else changes |
| SessionRun.StartIsGood | components/DiscussionPanel.tsx:21-34 | the first render is good: round 0 and nothing pending |
| SessionRun.FiredOk | components/DiscussionPanel.tsx:122-153 | whatever pending entry fires, the new entries name roster characters, the round stays within the ceiling and does not go down, and any appended message has a known sender |
| SessionRun.ReplyOk | components/DiscussionPanel.tsx:132-146 | a settled reply appends only the speaker's own message and chains only to a roster character |
| SessionRun.FirePreserves | components/DiscussionPanel.tsx:122-153 | a pending entry firing keeps the world good and the transcript append-only |
| SessionRun.OpenerPreserves | components/DiscussionPanel.tsx:84-89 | the opening timer keeps the world good and appends nothing |
| SessionRun.SubmitOk | components/DiscussionPanel.tsx:155-181 | a send leaves only roster characters pending and appends only the human's message |
| SessionRun.SendPreserves | components/DiscussionPanel.tsx:155-181 | a send keeps the world good, keeps the round, and appends only the human's message |
| SessionRun.ReactOk | components/DiscussionPanel.tsx:51-107 | a handler that schedules only good work and appends only known senders keeps the world good |
| SessionRun.StepPreserves | components/DiscussionPanel.tsx:51-181 | every stimulus keeps the world good; the transcript only grows, with known senders; the round does not go down |
| SessionRun.RunPreserves | components/DiscussionPanel.tsx:34 | over any sequence of stimuli, the round stays at or below 20 and never goes down, the transcript only grows, and every added message is from the human or a roster character under their own name |
| SessionRun.SessionInvariants | components/DiscussionPanel.tsx:21-25 | from the first render, the round stays within the ceiling, the initial transcript is kept, and known senders stay known |
| SessionRun.ChainCheckIsMoot | components/DiscussionPanel.tsx:140 | in a good world, whether a reply chains depends on the draw alone |
| SessionRun.CompleteIgnoresInterrupt | components/DiscussionPanel.tsx:129-152 | a settled reply does not read the interruption flag |
| SessionRun.SubmitIgnoresInterrupt | components/DiscussionPanel.tsx:160-163 | a send reads the flag only to raise it |
| SessionRun.FireIgnoresInterrupt | components/DiscussionPanel.tsx:122-153 | no pending entry reads the flag when it fires |
| SessionRun.StepIgnoresInterrupt | components/DiscussionPanel.tsx:26 | two worlds that differ only in the flag react to every stimulus alike in everything else |
| SessionRun.InterruptIsAdvisory | components/DiscussionPanel.tsx:160-163 | over any run, the flag never changes the transcript, the round, the turn in progress, the input or the pending work |
| SessionRun.OpenerScenario | components/DiscussionPanel.tsx:84-89 | when nobody acts, `char1` opens at round 1 with an empty history, and its reply becomes the first message |
| SessionRun.InterruptScenario | components/DiscussionPanel.tsx:160-163 | sending while the opener is typing raises the flag, and the banner timer lowers it without touching the transcript |
| SessionRun.DictationScenario | components/DiscussionPanel.tsx:51-67 | an interim "你" only reaches the interim buffer; the final "你好" reaches the input and the interim buffer empties |
| SessionRun.CeilingScenario | components/DiscussionPanel.tsx:123 | at the ceiling, a send still appends the message and schedules a reply, but no turn starts when that timer fires |
| StaleClosures.StartTurnAsWritten | components/DiscussionPanel.tsx:122-131 | as written: the ceiling test and the history come from the callback's render; below that stale ceiling the live round rises by one, the speaker becomes active and typing, and nothing else changes |
| StaleClosures.OneTurnAsWritten | components/DiscussionPanel.tsx:122-146 | as written: a turn whose chain draw succeeds chains and counts one more round |
| StaleClosures.ChainAsWrittenUnfold | components/DiscussionPanel.tsx:139-146 | as written: a chain is one turn, then the rest of the chain from the next speaker, with the same stale round |
| StaleClosures.CeilingPassedAsWritten | components/DiscussionPanel.tsx:123 | as written: a turn begun at round 19 that chains once reaches round 21, past the ceiling of 20 |
| StaleClosures.ReplyMissesMessageAsWritten | components/DiscussionPanel.tsx:131 | as written: the reply to a sent message is generated from the transcript without that message |
| StaleClosures.ReplySeesMessage | components/DiscussionPanel.tsx:177-179 | with the live state: the reply's history ends with the message just sent |
| StaleClosures.OpenerFireAsWritten | components/DiscussionPanel.tsx:84-89 | as written: the opener's test reads the first render, and only cancelling the timer stops it; when it fires the round rises by one and `char1` is active and typing, otherwise only the timer is disarmed |
| StaleClosures.OpenerIgnoresTypingAsWritten | components/DiscussionPanel.tsx:85 | as written: text typed but not sent does not hold the opener back |
| StaleClosures.OpenerWaitsForTyping | components/DiscussionPanel.tsx:85 | with the live state, the same typed text holds the opener back |

## Left out

- Rendering: the JSX, the auto-scroll effect, the character cards and the banner text (components/DiscussionPanel.tsx:36-40, 183-279). `isInterrupted` only drives the banner at line 232.
- The recogniser's life cycle: construction, `start`, `stop`, `onend` and the unmount cleanup (components/DiscussionPanel.tsx:43-50, 69-73, 91-94, 99, 105, 167). Only the folding of results and the `isListening` flag are modelled.
- The hand-off of the transcript to the feedback screen (`onFinish`, components/DiscussionPanel.tsx:191).
- The network calls, the API key, the model names and their parameters (services/geminiService.ts:17, 32-39, 59-62, 84-105). The provider is a function from the prompt to its answer.
- Prompt.GenerateFeedback: stops at the text handed to `JSON.parse` (services/geminiService.ts:108). Parsing and the response schema are the provider's business.
- Console logging (components/DiscussionPanel.tsx:76, 149; services/geminiService.ts:44, 67, 110).
- Session.Sent and Session.ReplySettled: use one clock reading for both the message id and its timestamp. The code calls `Date.now()` twice (components/DiscussionPanel.tsx:111, 115), and the two readings may differ. Ids are not claimed to be unique.
- Session.PickIndex: `Math.random()` is a real in [0, 1) and the product `d * n` is exact. Floating-point rounding is not modelled, and no probabilities are claimed.
- Timer ordering: pending work may fire in any order, so the model does not use the delays to order timers. Every property is proved for all orders, which includes the real one.
- React's batching of state updates: each handler's updates, and each settled reply's updates, take effect together.
- Mutual exclusion of turns: the code does not enforce it. A send schedules a turn even while one is in flight, and `activeCharId` is a single slot, so no "one turn at a time" property is claimed.
- `types.ts` and `vite.config.ts` are not part of this model. The avatar and colour fields of a character are used only for rendering.
- The main model reads the live state in the ceiling test, the turn's history and the opener's test, where the code reads an earlier render. `StaleClosures` models the code as written; see Findings.
- The rounds counter counts a turn when it starts (line 125), not when it succeeds, so a failed reply still uses up a round; the model follows the code.
- Stopping dictation does not clear the interim buffer, because the code leaves the ref as it is (components/DiscussionPanel.tsx:97-101); the model follows the code.

## Findings

| source | as written | input that shows it | evidently intended | confidence | as-written member | corrected member |
|---|---|---|---|---|---|---|
| components/DiscussionPanel.tsx:123 | the ceiling test, and the chain test at line 140, read `round` from the render that created the callback, and a chained turn calls the same callback again | a turn started at round 19 whose one chain draw is below 0.45: the chained turn re-reads the stale 19 and the round reaches 21; it keeps climbing as long as the draws succeed | the round never passes `MAX_ROUNDS` = 20 | medium, not executed | StaleClosures.CeilingPassedAsWritten | SessionRun.RunPreserves |
| components/DiscussionPanel.tsx:131 | the reply timer set by a send calls the callback of the render before the send, so `messages` lacks the message just sent | send "hello" to an empty transcript: the reply is generated from an empty history | the comment at line 130 and rule 3 of the template ask the character to answer the latest speakers, the human included | medium, not executed | StaleClosures.ReplyMissesMessageAsWritten | StaleClosures.ReplySeesMessage |
| components/DiscussionPanel.tsx:85 | the opening timer tests `messages`, `isListening` and `inputValue` of the first render | type text without sending and wait three seconds: the aggressive character opens anyway | the test `inputValue.length === 0` holds the opener back while the human is typing | medium, not executed | StaleClosures.OpenerIgnoresTypingAsWritten | StaleClosures.OpenerWaitsForTyping |

=== FILE: dictation.dfy ===
/**
 * How one speech-recognition event is folded into text
 * (`components/DiscussionPanel.tsx`, the `onresult` handler): the results
 * from `resultIndex` onward are split into the finalised text, which is
 * later appended to the input, and the interim text, which is only kept in
 * the interim-transcript ref.
 */
module Dictation {

  /** One recognition result: the transcript of its first alternative and
      whether the recogniser has finalised it. */
  datatype SpeechResult = SpeechResult(isFinal: bool, transcript: string)

  /** The transcripts of the final results, concatenated in order. */
  function FinalText(rs: seq<SpeechResult>): string
    decreases |rs|
  {
    if |rs| == 0 then ""
    else FinalText(rs[..|rs| - 1]) + (if rs[|rs| - 1].isFinal then rs[|rs| - 1].transcript else "")
  }

  /** The transcripts of the non-final results, concatenated in order. */
  function InterimText(rs: seq<SpeechResult>): string
    decreases |rs|
  {
    if |rs| == 0 then ""
    else InterimText(rs[..|rs| - 1]) + (if rs[|rs| - 1].isFinal then "" else rs[|rs| - 1].transcript)
  }

  /** Every transcript, concatenated in order. */
  function AllText(rs: seq<SpeechResult>): string
    decreases |rs|
  {
    if |rs| == 0 then "" else AllText(rs[..|rs| - 1]) + rs[|rs| - 1].transcript
  }

  /** The results the handler visits: from `resultIndex` to the end, none
      when the index is past the end. */
  function Pending(results: seq<SpeechResult>, resultIndex: nat): (r: seq<SpeechResult>)
    ensures |r| == if resultIndex <= |results| then |results| - resultIndex else 0
    ensures forall k | 0 <= k < |r| :: r[k] == results[resultIndex + k]
  {
    if resultIndex <= |results| then results[resultIndex..] else []
  }

  /** The handler's loop: one pass over the pending results, appending each
      transcript to the final or the interim text. */
  method CollectTranscripts(results: seq<SpeechResult>, resultIndex: nat)
    returns (finalText: string, interimText: string)
    ensures finalText == FinalText(Pending(results, resultIndex))
    ensures interimText == InterimText(Pending(results, resultIndex))
  {
    finalText, interimText := "", "";
    if resultIndex > |results| {
      return;
    }
    var i := resultIndex;
    while i < |results|
      invariant resultIndex <= i <= |results|
      invariant finalText == FinalText(results[resultIndex..i])
      invariant interimText == InterimText(results[resultIndex..i])
      decreases |results| - i
    {
      assert results[resultIndex..i + 1][..i - resultIndex] == results[resultIndex..i];
      if results[i].isFinal {
        finalText := finalText + results[i].transcript;
      } else {
        interimText := interimText + results[i].transcript;
      }
      i := i + 1;
    }
    assert results[resultIndex..i] == results[resultIndex..];
  }

  /** Every character of the visited transcripts goes to exactly one of the
      two texts: nothing is lost, nothing is counted twice. */
  lemma {:induction false} SplitIsPartition(rs: seq<SpeechResult>)
    ensures multiset(FinalText(rs)) + multiset(InterimText(rs)) == multiset(AllText(rs))
    decreases |rs|
  {
    if |rs| > 0 {
      SplitIsPartition(rs[..|rs| - 1]);
    }
  }

  /** Results that are all interim contribute no final text. */
  lemma {:induction false} InterimOnlyIsNotFinal(rs: seq<SpeechResult>)
    requires forall i | 0 <= i < |rs| :: !rs[i].isFinal
    ensures FinalText(rs) == ""
    ensures InterimText(rs) == AllText(rs)
    decreases |rs|
  {
    if |rs| > 0 {
      InterimOnlyIsNotFinal(rs[..|rs| - 1]);
    }
  }

  /** Results that are all final contribute no interim text. */
  lemma {:induction false} FinalOnlyIsAll(rs: seq<SpeechResult>)
    requires forall i | 0 <= i < |rs| :: rs[i].isFinal
    ensures FinalText(rs) == AllText(rs)
    ensures InterimText(rs) == ""
    decreases |rs|
  {
    if |rs| > 0 {
      FinalOnlyIsAll(rs[..|rs| - 1]);
    }
  }
}

=== FILE: js_string.dfy ===
/**
 * The few ECMAScript string built-ins the discussion code leans on, written
 * out over `seq<char>`: `trim`, `indexOf`, `replace` with a string pattern,
 * `Array.prototype.join` and the decimal rendering of a non-negative integer.
 */
module JsString {
  import opened Wrappers

  /** The characters `String.prototype.trim` strips: ECMAScript WhiteSpace
      (TAB, VT, FF, SPACE, NO-BREAK SPACE, ZERO WIDTH NO-BREAK SPACE and the
      Unicode category Zs) and LineTerminator (LF, CR, LINE and PARAGRAPH
      SEPARATOR). The ideographic space U+3000 is among them. */
  predicate IsWhiteSpace(c: char) {
    || c == '\t' || c == '\U{000B}' || c == '\U{000C}' || c == ' '
    || c == '\U{00A0}' || c == '\U{FEFF}' || c == '\U{1680}'
    || ('\U{2000}' <= c <= '\U{200A}')
    || c == '\U{202F}' || c == '\U{205F}' || c == '\U{3000}'
    || c == '\n' || c == '\r' || c == '\U{2028}' || c == '\U{2029}'
  }

  predicate AllWhiteSpace(s: string) {
    forall i | 0 <= i < |s| :: IsWhiteSpace(s[i])
  }

  /** Neither end of `s` is white space. */
  predicate IsTrimmed(s: string) {
    s == [] || (!IsWhiteSpace(s[0]) && !IsWhiteSpace(s[|s| - 1]))
  }

  /** Drops the leading white space of `s`. */
  function TrimStart(s: string): (r: string)
    ensures |r| <= |s| && r == s[|s| - |r|..]
    ensures AllWhiteSpace(s[..|s| - |r|])
    ensures r == [] || !IsWhiteSpace(r[0])
    decreases |s|
  {
    if |s| > 0 && IsWhiteSpace(s[0]) then TrimStart(s[1..]) else s
  }

  /** Drops the trailing white space of `s`. */
  function TrimEnd(s: string): (r: string)
    ensures |r| <= |s| && r == s[..|r|]
    ensures AllWhiteSpace(s[|r|..])
    ensures r == [] || !IsWhiteSpace(r[|r| - 1])
    decreases |s|
  {
    if |s| > 0 && IsWhiteSpace(s[|s| - 1]) then TrimEnd(s[..|s| - 1]) else s
  }

  /** `s.trim()`: the middle of `s` once white space is cut from both ends.
      `TrimIsMiddle` and `TrimUnique` pin the result down completely. */
  function Trim(s: string): (r: string)
    ensures IsTrimmed(r)
    ensures r == [] <==> AllWhiteSpace(s)
  {
    var t := TrimStart(s);
    var r := TrimEnd(t);
    TrimSplit(s);
    WhiteSpaceConcat(s[..|s| - |t|], r, t[|r|..]);
    r
  }

  /** `s` is what `TrimStart` cut, what `TrimEnd` kept, and what it cut. */
  lemma TrimSplit(s: string)
    ensures var t := TrimStart(s); var r := TrimEnd(t);
      s == s[..|s| - |t|] + r + t[|r|..] && AllWhiteSpace(s[..|s| - |t|]) && AllWhiteSpace(t[|r|..])
  {
    var t := TrimStart(s);
    var r := TrimEnd(t);
    var a, b := s[..|s| - |t|], t[|r|..];
    SplitAt(t, |r|);
    SplitAt(s, |s| - |t|);
    ConcatAssoc(a, r, b);
  }

  /** Every string is white space, then its trim, then white space. */
  lemma TrimIsMiddle(s: string)
    ensures exists a, b :: s == a + Trim(s) + b && AllWhiteSpace(a) && AllWhiteSpace(b)
  {
    var t := TrimStart(s);
    var r := TrimEnd(t);
    var a, b := s[..|s| - |t|], t[|r|..];
    TrimSplit(s);
    assert Trim(s) == r;
    assert s == a + r + b && AllWhiteSpace(a) && AllWhiteSpace(b);
  }

  lemma SplitAt<T>(xs: seq<T>, k: nat)
    requires k <= |xs|
    ensures xs == xs[..k] + xs[k..]
  {
  }

  lemma ConcatAssoc<T>(a: seq<T>, b: seq<T>, c: seq<T>)
    ensures a + (b + c) == a + b + c
  {
  }

  /** A concatenation is all white space exactly when each part is. */
  lemma WhiteSpaceConcat(a: string, m: string, b: string)
    ensures AllWhiteSpace(a + m + b) <==> AllWhiteSpace(a) && AllWhiteSpace(m) && AllWhiteSpace(b)
  {
    var s := a + m + b;
    if AllWhiteSpace(s) {
      forall k | 0 <= k < |a| ensures IsWhiteSpace(a[k]) { assert a[k] == s[k]; }
      forall k | 0 <= k < |m| ensures IsWhiteSpace(m[k]) { assert m[k] == s[|a| + k]; }
      forall k | 0 <= k < |b| ensures IsWhiteSpace(b[k]) { assert b[k] == s[|a| + |m| + k]; }
    }
  }

  lemma {:induction false} TrimStartSkips(a: string, t: string)
    requires AllWhiteSpace(a)
    requires t == [] || !IsWhiteSpace(t[0])
    ensures TrimStart(a + t) == t
    decreases |a|
  {
    if |a| > 0 {
      assert (a + t)[1..] == a[1..] + t;
      TrimStartSkips(a[1..], t);
    } else {
      assert a + t == t;
    }
  }

  lemma {:induction false} TrimEndSkips(t: string, b: string)
    requires AllWhiteSpace(b)
    requires t == [] || !IsWhiteSpace(t[|t| - 1])
    ensures TrimEnd(t + b) == t
    decreases |b|
  {
    if |b| > 0 {
      assert (t + b)[..|t + b| - 1] == t + b[..|b| - 1];
      TrimEndSkips(t, b[..|b| - 1]);
    } else {
      assert t + b == t;
    }
  }

  /** An independent characterisation of `trim`: whatever way `s` splits
      into white space, a middle with no white space at either end, and white space, that middle
      is what `trim` returns. */
  lemma TrimUnique(a: string, m: string, b: string)
    requires AllWhiteSpace(a) && AllWhiteSpace(b) && IsTrimmed(m)
    ensures Trim(a + m + b) == m
  {
    if m == [] {
      assert a + m + b == a + b;
      assert AllWhiteSpace(a + b) by {
        forall i | 0 <= i < |a + b| ensures IsWhiteSpace((a + b)[i]) {
          if i >= |a| { assert (a + b)[i] == b[i - |a|]; }
        }
      }
    } else {
      assert a + m + b == a + (m + b);
      TrimStartSkips(a, m + b);
      TrimEndSkips(m, b);
    }
  }

  /** Trimming twice is trimming once. */
  lemma TrimIdempotent(s: string)
    ensures Trim(Trim(s)) == Trim(s)
  {
    var m := Trim(s);
    assert [] + m + [] == m;
    TrimUnique([], m, []);
  }

  /** `pat` occurs in `s` starting at index `i`. */
  predicate OccursAt(s: string, pat: string, i: int) {
    0 <= i && i + |pat| <= |s| && s[i..i + |pat|] == pat
  }

  /** The least index at or after `from` where `pat` occurs in `s`. */
  function SearchFrom(s: string, pat: string, from: nat): (r: Option<nat>)
    ensures r.Some? ==> from <= r.value && OccursAt(s, pat, r.value)
    ensures r.Some? ==> forall j | from <= j < r.value :: !OccursAt(s, pat, j)
    ensures r.None? ==> forall j | from <= j :: !OccursAt(s, pat, j)
    decreases |s| - from
  {
    if from + |pat| > |s| then None
    else if s[from..from + |pat|] == pat then Some(from)
    else SearchFrom(s, pat, from + 1)
  }

  /** `s.indexOf(pat)`, with `None` for JavaScript's -1. */
  function IndexOf(s: string, pat: string): (r: Option<nat>)
    ensures r.Some? ==> OccursAt(s, pat, r.value) && forall j | 0 <= j < r.value :: !OccursAt(s, pat, j)
    ensures r.None? <==> forall j :: !OccursAt(s, pat, j)
  {
    SearchFrom(s, pat, 0)
  }

  /** The text `String.prototype.replace` inserts for a string (not regular
      expression) pattern: `$$` stands for `$`, `$&` for the matched text,
      `` $` `` for the text before the match and `$'` for the text after it.
      A string pattern has no capture groups, so every other `$` is literal. */
  function Substitution(rep: string, matched: string, before: string, after: string): string
    decreases |rep|
  {
    if |rep| == 0 then ""
    else if rep[0] == '$' && |rep| >= 2 && rep[1] in "$&`'" then
      var expansion := match rep[1]
        case '$' => "$"
        case '&' => matched
        case '`' => before
        case _ => after;
      expansion + Substitution(rep[2..], matched, before, after)
    else [rep[0]] + Substitution(rep[1..], matched, before, after)
  }

  /** Without a `$`, the replacement text is inserted as it is. */
  lemma {:induction false} SubstitutionLiteral(rep: string, matched: string, before: string, after: string)
    requires '$' !in rep
    ensures Substitution(rep, matched, before, after) == rep
    decreases |rep|
  {
    if |rep| > 0 {
      assert rep[0] != '$';
      assert '$' !in rep[1..] by {
        forall i | 0 <= i < |rep[1..]| ensures rep[1..][i] != '$' {
          assert rep[1..][i] == rep[i + 1];
        }
      }
      SubstitutionLiteral(rep[1..], matched, before, after);
      assert [rep[0]] + rep[1..] == rep;
    }
  }

  /** `s.replace(pat, rep)` with a string pattern: the first occurrence only. */
  function Replace(s: string, pat: string, rep: string): string {
    match IndexOf(s, pat)
    case None => s
    case Some(i) => s[..i] + Substitution(rep, pat, s[..i], s[i + |pat|..]) + s[i + |pat|..]
  }

  /** Without an occurrence, `replace` changes nothing. */
  lemma ReplaceAbsent(s: string, pat: string, rep: string)
    requires forall j :: !OccursAt(s, pat, j)
    ensures Replace(s, pat, rep) == s
  {
  }

  /** When no occurrence of `pat` starts inside `a`, the one right after it
      is the one replaced, and a `$`-free replacement lands verbatim. */
  lemma ReplaceAt(a: string, pat: string, b: string, rep: string)
    requires forall j | 0 <= j < |a| :: !OccursAt(a + pat + b, pat, j)
    requires '$' !in rep
    ensures Replace(a + pat + b, pat, rep) == a + rep + b
  {
    var s := a + pat + b;
    assert OccursAt(s, pat, |a|) by { assert s[|a|..|a| + |pat|] == pat; }
    assert IndexOf(s, pat) == Some(|a|);
    assert s[..|a|] == a;
    assert s[|a| + |pat|..] == b;
    SubstitutionLiteral(rep, pat, a, b);
  }

  /** Where a pattern can start in `a + p + b` when its first character
      appears neither in `a` nor after the first character of `p`: exactly
      at the start of `p`, or inside `b`. */
  lemma OccurrencesAround(a: string, p: string, b: string, q: string)
    requires |q| > 0 && |p| > 0
    requires q[0] !in a && q[0] !in p[1..]
    ensures forall j :: OccursAt(a + p + b, q, j) <==>
      || (j == |a| && OccursAt(a + p + b, q, |a|))
      || (j >= |a| + |p| && OccursAt(b, q, j - |a| - |p|))
  {
    var s := a + p + b;
    forall j ensures OccursAt(s, q, j) <==>
      || (j == |a| && OccursAt(s, q, |a|))
      || (j >= |a| + |p| && OccursAt(b, q, j - |a| - |p|))
    {
      if 0 <= j < |a| {
        assert s[j] == a[j];
        assert j + |q| <= |s| ==> s[j..j + |q|][0] == s[j];
      } else if |a| < j < |a| + |p| {
        assert s[j] == p[j - |a|] == p[1..][j - |a| - 1];
        assert j + |q| <= |s| ==> s[j..j + |q|][0] == s[j];
      } else if j >= |a| + |p| {
        var k := j - |a| - |p|;
        if j + |q| <= |s| {
          assert s[j..j + |q|] == b[k..k + |q|];
        }
      }
    }
  }

  /** `xs.join(sep)`. */
  function Join(xs: seq<string>, sep: string): string
    decreases |xs|
  {
    if |xs| == 0 then ""
    else if |xs| == 1 then xs[0]
    else xs[0] + sep + Join(xs[1..], sep)
  }

  /** Joining a concatenation joins the parts with one more separator. */
  lemma {:induction false} JoinConcat(xs: seq<string>, ys: seq<string>, sep: string)
    requires |xs| > 0 && |ys| > 0
    ensures Join(xs + ys, sep) == Join(xs, sep) + sep + Join(ys, sep)
    decreases |xs|
  {
    if |xs| == 1 {
      assert (xs + ys)[1..] == ys;
    } else {
      assert (xs + ys)[1..] == xs[1..] + ys;
      JoinConcat(xs[1..], ys, sep);
    }
  }

  function DigitChar(d: nat): char
    requires d < 10
  {
    "0123456789"[d]
  }

  function DigitValue(c: char): nat
    requires '0' <= c <= '9'
  {
    (c as int - '0' as int) as nat
  }

  /** The decimal value of a string of digits. */
  function DecimalValue(s: string): nat
    requires forall i | 0 <= i < |s| :: '0' <= s[i] <= '9'
    decreases |s|
  {
    if |s| == 0 then 0 else 10 * DecimalValue(s[..|s| - 1]) + DigitValue(s[|s| - 1])
  }

  /** `n.toString()` for a non-negative integer: decimal digits, no leading
      zero, and reading the digits back gives `n`. */
  function NumberToString(n: nat): (r: string)
    ensures |r| > 0 && forall i | 0 <= i < |r| :: '0' <= r[i] <= '9'
    ensures r[0] == '0' ==> r == "0"
    ensures DecimalValue(r) == n
    decreases n
  {
    if n < 10 then [DigitChar(n)]
    else
      var r := NumberToString(n / 10) + [DigitChar(n % 10)];
      assert r[..|r| - 1] == NumberToString(n / 10);
      r
  }
}

=== FILE: prompt.dfy ===
/**
 * The deterministic parts of the text-generation service
 * (`services/geminiService.ts`): how a character's prompt is assembled
 * from the template and the recent history, and how the provider's answer
 * is normalised, sanitised or replaced by a fallback. The provider itself
 * is a parameter: a function from the prompt to what it answered.
 */
module Prompt {
  import opened Wrappers
  import opened Types
  import opened JsString
  import opened Roster

  /** Returned when the provider's reply is absent or blank. */
  const ReplyFallback := "我们需要加快进度了。"
  /** Returned instead of a reply when the provider call fails. */
  const ThinkingPlaceholder := "（正在思考中...）"
  /** Returned when the generated topic is absent or blank after cleaning. */
  const TopicFallback := "请手动输入讨论题目。"
  /** The feedback text parsed when the provider sent none. */
  const EmptyFeedback := "{}"
  /** How many of the latest messages a character sees. */
  const ContextSize := 5

  /** What the provider did with one request: it answered, with a text
      that may be missing, or its promise was rejected. */
  datatype ProviderAnswer = Answered(text: Option<string>) | Rejected

  /** Whether constructing the provider client succeeded. */
  datatype ClientStatus = ClientReady | ClientThrows

  /** Why a service call's promise is rejected. */
  datatype ServiceError = ClientError | ProviderError

  /** The prompt template filled by a chain of first-occurrence
      replacements, in the order job title, topic, name, role, personality. */
  function FillTemplate(template: string, jobTitle: string, topic: string, c: Character): string {
    var withJob := Replace(template, JobTitleSlot, jobTitle);
    var withTopic := Replace(withJob, TopicSlot, topic);
    var withName := Replace(withTopic, NameSlot, c.name);
    var withRole := Replace(withName, RoleSlot, RoleName(c.role));
    Replace(withRole, PersonalitySlot, c.personality)
  }

  /** With no `{` before it, a placeholder is where its first occurrence
      is, and a `$`-free value replaces it verbatim. */
  lemma FillSlot(a: string, p: string, b: string, v: string)
    requires '{' !in a && IsSlot(p) && '$' !in v
    ensures Replace(a + p + b, p, v) == a + v + b
  {
    SlotOccurrences(a, p, b, p);
    ReplaceAt(a, p, b, v);
  }

  /** Replacing a placeholder that differs from the only one present
      changes nothing. */
  lemma SkipSlot(a: string, p: string, b: string, q: string, v: string)
    requires '{' !in a && '{' !in b && IsSlot(p) && IsSlot(q) && p != q
    ensures Replace(a + p + b, q, v) == a + p + b
  {
    SlotOccurrences(a, p, b, q);
    NoSlotWithoutBrace(b, q);
    ReplaceAbsent(a + p + b, q, v);
  }

  /** The chain of replacements over a template of fixed text and four
      placeholders, the role placeholder being none of them: each value
      lands in its own slot when the earlier values bring no `{` of their own. */
  lemma FillChain(s0: string, p1: string, s1: string, p2: string, s2: string,
                  p3: string, s3: string, p4: string, s4: string, pr: string,
                  v1: string, v2: string, v3: string, v4: string, vr: string)
    requires '{' !in s0 && '{' !in s1 && '{' !in s2 && '{' !in s3 && '{' !in s4
    requires IsSlot(p1) && IsSlot(p2) && IsSlot(p3) && IsSlot(p4) && IsSlot(pr) && pr != p4
    requires IsPlain(v1) && IsPlain(v2) && IsPlain(v3) && '$' !in v4
    ensures Replace(Replace(Replace(Replace(Replace(
              s0 + p1 + (s1 + p2 + (s2 + p3 + (s3 + p4 + s4))), p1, v1), p2, v2), p3, v3), pr, vr), p4, v4)
            == s0 + v1 + s1 + v2 + s2 + v3 + s3 + v4 + s4
  {
    var r3 := s3 + p4 + s4;
    var r2 := s2 + p3 + r3;
    FillSlot(s0, p1, s1 + p2 + r2, v1);
    var a2 := s0 + v1 + s1;
    assert s0 + v1 + (s1 + p2 + r2) == a2 + p2 + r2;
    FillSlot(a2, p2, r2, v2);
    var a3 := a2 + v2 + s2;
    assert a2 + v2 + r2 == a3 + p3 + r3;
    FillLastSlots(a3, p3, s3, p4, s4, pr, v3, v4, vr);
  }

  /** The last three replacements of the chain. */
  lemma FillLastSlots(a: string, p3: string, s3: string, p4: string, s4: string, pr: string,
                      v3: string, v4: string, vr: string)
    requires '{' !in a && '{' !in s3 && '{' !in s4
    requires IsSlot(p3) && IsSlot(p4) && IsSlot(pr) && pr != p4
    requires IsPlain(v3) && '$' !in v4
    ensures Replace(Replace(Replace(a + p3 + (s3 + p4 + s4), p3, v3), pr, vr), p4, v4)
            == a + v3 + s3 + v4 + s4
  {
    FillSlot(a, p3, s3 + p4 + s4, v3);
    var a4 := a + v3 + s3;
    assert a + v3 + (s3 + p4 + s4) == a4 + p4 + s4;
    SkipSlot(a4, p4, s4, pr, vr);
    FillSlot(a4, p4, s4, v4);
  }

  /** The template regrouped to the right, the shape `FillChain` expects. */
  lemma TemplateRegrouped()
    ensures SystemPromptBase
            == Seg0 + JobTitleSlot + (Seg1 + TopicSlot + (Seg2 + NameSlot + (Seg3 + PersonalitySlot + Seg4)))
  {
    Regroup(Seg0, JobTitleSlot, Seg1, TopicSlot, Seg2, NameSlot, Seg3, PersonalitySlot, Seg4);
  }

  lemma Regroup<T>(s0: seq<T>, p1: seq<T>, s1: seq<T>, p2: seq<T>, s2: seq<T>,
                   p3: seq<T>, s3: seq<T>, p4: seq<T>, s4: seq<T>)
    ensures s0 + p1 + s1 + p2 + s2 + p3 + s3 + p4 + s4
            == s0 + p1 + (s1 + p2 + (s2 + p3 + (s3 + p4 + s4)))
  {
  }

  /** Filling `SYSTEM_PROMPT_BASE` with plain values puts each value where
      its placeholder was, leaves the role replacement without effect, and
      leaves no `{` — so no placeholder — behind. */
  lemma FillTemplateShape(jobTitle: string, topic: string, c: Character)
    requires IsPlain(jobTitle) && IsPlain(topic) && IsPlain(c.name) && IsPlain(c.personality)
    ensures FillTemplate(SystemPromptBase, jobTitle, topic, c)
            == Seg0 + jobTitle + Seg1 + topic + Seg2 + c.name + Seg3 + c.personality + Seg4
    ensures '{' !in FillTemplate(SystemPromptBase, jobTitle, topic, c)
  {
    FixedTextBraceFree();
    SlotsAreSlots();
    TemplateRegrouped();
    FillChain(Seg0, JobTitleSlot, Seg1, TopicSlot, Seg2, NameSlot, Seg3, PersonalitySlot, Seg4, RoleSlot,
              jobTitle, topic, c.name, c.personality, RoleName(c.role));
  }

  /** For the roster's own characters, plain job titles and topics suffice. */
  lemma RosterFillShape(jobTitle: string, topic: string, c: Character)
    requires c in Characters && IsPlain(jobTitle) && IsPlain(topic)
    ensures FillTemplate(SystemPromptBase, jobTitle, topic, c)
            == Seg0 + jobTitle + Seg1 + topic + Seg2 + c.name + Seg3 + c.personality + Seg4
  {
    RosterTextPlain();
    FillTemplateShape(jobTitle, topic, c);
  }

  /** The replacements are not hygienic: a topic that reads `{characterName}`
      is itself replaced by the name, and the real name placeholder survives
      into the prompt. */
  lemma FillCapturesTopic(jobTitle: string, c: Character)
    requires IsPlain(jobTitle) && IsPlain(c.name) && '$' !in c.personality
    ensures FillTemplate(SystemPromptBase, jobTitle, NameSlot, c)
            == Seg0 + jobTitle + Seg1 + c.name + Seg2 + NameSlot + Seg3 + c.personality + Seg4
  {
    FixedTextBraceFree();
    SlotsAreSlots();
    TemplateRegrouped();
    CaptureChain(Seg0, JobTitleSlot, Seg1, TopicSlot, Seg2, NameSlot, Seg3, PersonalitySlot, Seg4, RoleSlot,
                 jobTitle, c.name, c.personality, RoleName(c.role));
  }

  /** The chain of replacements when the second value is the third
      placeholder: the third value lands in the second slot. */
  lemma CaptureChain(s0: string, p1: string, s1: string, p2: string, s2: string,
                     p3: string, s3: string, p4: string, s4: string, pr: string,
                     v1: string, v3: string, v4: string, vr: string)
    requires '{' !in s0 && '{' !in s1 && '{' !in s2 && '{' !in s3 && '{' !in s4
    requires IsSlot(p1) && IsSlot(p2) && IsSlot(p3) && IsSlot(p4) && IsSlot(pr)
    requires p3 != p4 && pr != p3 && pr != p4 && '$' !in p3
    requires IsPlain(v1) && IsPlain(v3) && '$' !in v4
    ensures Replace(Replace(Replace(Replace(Replace(
              s0 + p1 + (s1 + p2 + (s2 + p3 + (s3 + p4 + s4))), p1, v1), p2, p3), p3, v3), pr, vr), p4, v4)
            == s0 + v1 + s1 + v3 + s2 + p3 + s3 + v4 + s4
  {
    var r3 := s3 + p4 + s4;
    var r2 := s2 + p3 + r3;
    FillSlot(s0, p1, s1 + p2 + r2, v1);
    var a2 := s0 + v1 + s1;
    assert s0 + v1 + (s1 + p2 + r2) == a2 + p2 + r2;
    FillSlot(a2, p2, r2, p3);
    FillSlot(a2, p3, r2, v3);
    var a4 := a2 + v3 + s2;
    assert a2 + v3 + r2 == a4 + p3 + r3;
    TwoSlotsSkip(a4, p3, s3, p4, s4, pr, vr);
    SecondSlotFill(a4, p3, s3, p4, s4, v4);
  }

  /** A placeholder matching neither of two present ones is not replaced. */
  lemma TwoSlotsSkip(a: string, p: string, m: string, p': string, b: string, q: string, v: string)
    requires '{' !in a && '{' !in m && '{' !in b && IsSlot(p) && IsSlot(p') && IsSlot(q)
    requires q != p && q != p'
    ensures Replace(a + p + (m + p' + b), q, v) == a + p + (m + p' + b)
  {
    SlotOccurrences(a, p, m + p' + b, q);
    SlotOccurrences(m, p', b, q);
    NoSlotWithoutBrace(b, q);
    ReplaceAbsent(a + p + (m + p' + b), q, v);
  }

  /** Of two different placeholders, the second is found past the first. */
  lemma SecondSlotFill(a: string, p: string, m: string, p': string, b: string, v: string)
    requires '{' !in a && '{' !in m && IsSlot(p) && IsSlot(p') && p != p' && '$' !in v
    ensures Replace(a + p + (m + p' + b), p', v) == a + p + m + v + b
  {
    assert a + p + (m + p' + b) == a + p + m + p' + b;
    SlotOccurrences(a, p, m + p' + b, p');
    SlotOccurrences(m, p', b, p');
    ReplaceAt(a + p + m, p', b, v);
  }

  /** `history.slice(-5)`: the last `min(n, 5)` messages, in order. */
  function RecentWindow(history: seq<Message>): (r: seq<Message>)
    ensures |r| == if |history| < ContextSize then |history| else ContextSize
    ensures r == history[|history| - |r|..]
  {
    if |history| <= ContextSize then history else history[|history| - ContextSize..]
  }

  /** A short history is seen whole: three messages yield all three. */
  lemma ShortHistoryWhole(history: seq<Message>)
    requires |history| <= ContextSize
    ensures RecentWindow(history) == history
  {
  }

  /** One history line: `name: content`. */
  function FormatLine(m: Message): string {
    m.senderName + ": " + m.content
  }

  function Lines(history: seq<Message>): (r: seq<string>)
    ensures |r| == |history|
    ensures forall i | 0 <= i < |history| :: r[i] == FormatLine(history[i])
  {
    seq(|history|, i requires 0 <= i < |history| => FormatLine(history[i]))
  }

  /** The history as the service writes it into a prompt: one line per
      message, joined by newlines. */
  function HistoryText(history: seq<Message>): string {
    Join(Lines(history), "\n")
  }

  /** The text of a split history is the two texts joined by one newline. */
  lemma HistoryTextSplit(a: seq<Message>, b: seq<Message>)
    requires |a| > 0 && |b| > 0
    ensures HistoryText(a + b) == HistoryText(a) + "\n" + HistoryText(b)
  {
    assert Lines(a + b) == Lines(a) + Lines(b);
    JoinConcat(Lines(a), Lines(b), "\n");
  }

  /** Appending a message appends one line. */
  lemma HistoryTextAppend(history: seq<Message>, m: Message)
    ensures HistoryText(history + [m])
            == if history == [] then FormatLine(m) else HistoryText(history) + "\n" + FormatLine(m)
  {
    if history == [] {
      assert history + [m] == [m];
    } else {
      HistoryTextSplit(history, [m]);
    }
  }

  /** What a character sees is the tail of the full record the feedback
      request carries, in the same format. */
  lemma WindowIsTailOfRecord(history: seq<Message>)
    ensures HistoryText(history)
            == if |history| <= ContextSize then HistoryText(RecentWindow(history))
               else HistoryText(history[..|history| - ContextSize]) + "\n" + HistoryText(RecentWindow(history))
  {
    if |history| > ContextSize {
      var k := |history| - ContextSize;
      assert history == history[..k] + history[k..];
      HistoryTextSplit(history[..k], history[k..]);
    }
  }

  /** The prompt `generateAIReply` sends for `c`. */
  function ReplyPrompt(c: Character, topic: string, jobTitle: string, history: seq<Message>): string {
    "\n    " + FillTemplate(SystemPromptBase, jobTitle, topic, c) +
    "\n    \n    最近讨论流：\n    " + HistoryText(RecentWindow(history)) +
    "\n    \n    请立刻发表你的言论（纯文本，严禁Markdown）：\n  "
  }

  /** `response.text?.trim() || fallback`: the trimmed text, or the
      fallback when it is missing or blank. Never empty. */
  function NormalizeReply(text: Option<string>): (r: string)
    ensures r != [] && IsTrimmed(r)
    ensures text.Some? && !AllWhiteSpace(text.value) ==> r == Trim(text.value)
    ensures text.None? || AllWhiteSpace(text.value) ==> r == ReplyFallback
  {
    match text
    case Some(t) => if Trim(t) != "" then Trim(t) else ReplyFallback
    case None => ReplyFallback
  }

  /** `generateAIReply`: only constructing the client, outside the `try`,
      rejects; a provider failure resolves to the thinking placeholder. */
  function GenerateAIReply(c: Character, topic: string, jobTitle: string, history: seq<Message>,
                           client: ClientStatus, provider: string -> ProviderAnswer)
    : (r: Result<string, ServiceError>)
    ensures r.Failure? <==> client == ClientThrows
    ensures r.Success? ==> r.value != []
    ensures r.Success? ==>
      match provider(ReplyPrompt(c, topic, jobTitle, history))
      case Rejected => r.value == ThinkingPlaceholder
      case Answered(text) => r.value == NormalizeReply(text)
  {
    match client
    case ClientThrows => Failure(ClientError)
    case ClientReady =>
      match provider(ReplyPrompt(c, topic, jobTitle, history))
      case Rejected => Success(ThinkingPlaceholder)
      case Answered(text) => Success(NormalizeReply(text))
  }

  /** The Markdown marks the topic cleaner deletes: `*`, `#`, `` ` `` and `>`. */
  predicate IsMarkup(ch: char) {
    ch == '*' || ch == '#' || ch == '`' || ch == '>'
  }

  /** `s.replace(/\*|#|`|>/g, '')`. */
  function StripMarkup(s: string): (r: string)
    ensures |r| <= |s|
    ensures forall i | 0 <= i < |r| :: !IsMarkup(r[i])
    ensures forall ch | !IsMarkup(ch) :: multiset(r)[ch] == multiset(s)[ch]
    decreases |s|
  {
    if |s| == 0 then ""
    else
      var rest := StripMarkup(s[1..]);
      assert s == [s[0]] + s[1..];
      if IsMarkup(s[0]) then rest else [s[0]] + rest
  }

  /** Stripping works piece by piece, so the characters it keeps stay in order. */
  lemma {:induction false} StripMarkupConcat(a: string, b: string)
    ensures StripMarkup(a + b) == StripMarkup(a) + StripMarkup(b)
    decreases |a|
  {
    if |a| > 0 {
      assert (a + b)[1..] == a[1..] + b;
      StripMarkupConcat(a[1..], b);
    } else {
      assert a + b == b;
    }
  }

  /** Text without markup passes through untouched. */
  lemma {:induction false} StripMarkupPlain(s: string)
    requires forall i | 0 <= i < |s| :: !IsMarkup(s[i])
    ensures StripMarkup(s) == s
    decreases |s|
  {
    if |s| > 0 {
      StripMarkupPlain(s[1..]);
    }
  }

  /** Trimming brings no markup back. */
  lemma TrimKeepsClean(s: string)
    requires forall i | 0 <= i < |s| :: !IsMarkup(s[i])
    ensures forall i | 0 <= i < |Trim(s)| :: !IsMarkup(Trim(s)[i])
  {
    var t := TrimStart(s);
    var r := TrimEnd(t);
    assert Trim(s) == r;
    assert t == s[|s| - |t|..] && r == t[..|r|];
    forall k | 0 <= k < |r| ensures !IsMarkup(r[k]) {
      assert r[k] == t[k];
      assert t[k] == s[|s| - |t| + k];
    }
  }

  /** `response.text?.replace(/\*|#|`|>/g, '').trim() || fallback`. */
  function SanitizeTopic(text: Option<string>): (r: string)
    ensures r != [] && IsTrimmed(r)
    ensures forall i | 0 <= i < |r| :: !IsMarkup(r[i])
    ensures text.Some? && !AllWhiteSpace(StripMarkup(text.value)) ==> r == Trim(StripMarkup(text.value))
    ensures text.None? || AllWhiteSpace(StripMarkup(text.value)) ==> r == TopicFallback
  {
    match text
    case None => TopicFallback
    case Some(t) =>
      var cleaned := Trim(StripMarkup(t));
      if cleaned != "" then
        TrimKeepsClean(StripMarkup(t));
        cleaned
      else TopicFallback
  }

  /** The prompt `generateTopic` sends. */
  function TopicPrompt(company: string, jobTitle: string): string {
    "扮演" + company + "面试官，出1个" + jobTitle + "岗位的群面案例题。" +
    "只输出题目内容。严禁任何Markdown标记（不要加粗、不要列表、不要标题）。" +
    "直接输出一段或几段文字。"
  }

  /** `generateTopic`: provider failures are rethrown, not swallowed. */
  function GenerateTopic(company: string, jobTitle: string,
                         client: ClientStatus, provider: string -> ProviderAnswer)
    : (r: Result<string, ServiceError>)
    ensures r.Failure? <==> client == ClientThrows || provider(TopicPrompt(company, jobTitle)).Rejected?
    ensures r.Failure? ==> r.error == (if client == ClientThrows then ClientError else ProviderError)
    ensures r.Success? ==> r.value != [] && forall i | 0 <= i < |r.value| :: !IsMarkup(r.value[i])
    ensures r.Success? ==>
      provider(TopicPrompt(company, jobTitle)).Answered? &&
      r.value == SanitizeTopic(provider(TopicPrompt(company, jobTitle)).text)
  {
    match client
    case ClientThrows => Failure(ClientError)
    case ClientReady =>
      match provider(TopicPrompt(company, jobTitle))
      case Rejected => Failure(ProviderError)
      case Answered(text) => Success(SanitizeTopic(text))
  }

  /** The request `generateFeedback` sends: the whole history, one line per
      message, in the same format as a character's window. */
  function FeedbackRequest(topic: string, jobTitle: string, history: seq<Message>): string {
    "分析以下群面记录，针对应聘【" + jobTitle + "】的【用户】给出评分和建议：\n        题目：" + topic +
    "\n        记录：" + HistoryText(history) +
    "\n        按JSON格式返回评分、时机评价、结构贡献、抗压表现、3条建议。"
  }

  /** `generateFeedback` up to the `JSON.parse`: the text to be parsed,
      `"{}"` when the provider sent none; failures are rethrown. */
  function GenerateFeedback(topic: string, jobTitle: string, history: seq<Message>,
                            client: ClientStatus, provider: string -> ProviderAnswer)
    : (r: Result<string, ServiceError>)
    ensures r.Failure? <==> client == ClientThrows || provider(FeedbackRequest(topic, jobTitle, history)).Rejected?
    ensures r.Failure? ==> r.error == (if client == ClientThrows then ClientError else ProviderError)
    ensures r.Success? ==> r.value != []
    ensures r.Success? && provider(FeedbackRequest(topic, jobTitle, history)).text.Some?
              && provider(FeedbackRequest(topic, jobTitle, history)).text.value != []
            ==> r.value == provider(FeedbackRequest(topic, jobTitle, history)).text.value
    ensures r.Success? && (provider(FeedbackRequest(topic, jobTitle, history)).text.None?
              || provider(FeedbackRequest(topic, jobTitle, history)).text.value == [])
            ==> r.value == EmptyFeedback
  {
    match client
    case ClientThrows => Failure(ClientError)
    case ClientReady =>
      match provider(FeedbackRequest(topic, jobTitle, history))
      case Rejected => Failure(ProviderError)
      case Answered(text) => Success(if text.Some? && text.value != "" then text.value else EmptyFeedback)
  }
}

=== FILE: roster.dfy ===
/**
 * The fixed cast of the simulated group interview and the system prompt
 * template every character speaks from (`constants.ts`).
 */
module Roster {
  import opened Wrappers
  import opened Types
  import opened JsString

  const Char1 := Character(
    "char1",
    "张强 (Aggressive)",
    Aggressive,
    "强势抢话型：深度控场。" +
    "喜欢设定讨论框架和节奏，会强力纠偏。" +
    "常用语：“我认为讨论应分为三个阶段...”、" +
    "“我们时间太散了，必须立刻确定核心目标”。" +
    "语气极其果断。")

  const Char2 := Character(
    "char2",
    "李雅 (Structured)",
    Structured,
    "结构总结型：枢纽人物。" +
    "擅长归纳共识并推进话题。" +
    "常用语：“刚才大家提到了A和B，" +
    "核心分歧已明确，现在建议进入方案对比环节...”。" +
    "关注深度，起到承上启下的枢纽作用。")

  const Char3 := Character(
    "char3",
    "王敏 (Detail)",
    Detail,
    "补充细节型：务实严谨。" +
    "关注方案的可落地性。" +
    "会针对某个点深挖，比如“人力成本和技术风险如何覆盖？”。" +
    "语气平实，只谈具体执行。")

  /** `CHARACTERS`, in declaration order. */
  const Characters: seq<Character> := [Char1, Char2, Char3]

  /** The placeholders of the system prompt, in the order they are filled. */
  const JobTitleSlot := "{jobTitle}"
  const TopicSlot := "{topic}"
  const NameSlot := "{characterName}"
  const RoleSlot := "{characterRole}"
  const PersonalitySlot := "{characterPersonality}"

  /** The fixed text of `SYSTEM_PROMPT_BASE` between its placeholders. */
  const Seg0 := "\n你现在正在参加一场【"
  const Seg1 := "】岗位的真实群面。\n讨论题目："
  const Seg2 := "\n\n你是："
  const Seg3 := "\n性格："
  const Seg4 := RulesHeading + Rule1 + Rule2 + Rule3 + Rule4 + Rule5

  /** The reply rules that close the template. */
  const RulesHeading := "\n\n回复规则：\n"
  const Rule1 := "1. **绝对严禁 Markdown**：" + "不要使用粗体、列表、标题等。只输出纯自然文本。\n"
  const Rule2 := "2. **极简主义**：字数严格控制在 80 字以内。\n"
  const Rule3 := "3. **针对性**：" + "必须回应前序发言人（包括用户）的观点，而不是各说各的。\n"
  const Rule4 := "4. **拒绝废话**：" + "不要说“很高兴和你讨论”这种寒暄。" + "直接给观点、给框架或提质疑。\n"
  const Rule5 := "5. **身份沉浸**：保持性格一致性。" + "如果是总结型，务必体现出对前面观点的收拢和对新话题的开启。\n"

  /** `SYSTEM_PROMPT_BASE`. */
  const SystemPromptBase :=
    Seg0 + JobTitleSlot + Seg1 + TopicSlot + Seg2 + NameSlot + Seg3 + PersonalitySlot + Seg4

  /** Where the placeholders start in `SYSTEM_PROMPT_BASE`. */
  const JobTitleAt := |Seg0|
  const TopicAt := JobTitleAt + |JobTitleSlot| + |Seg1|
  const NameAt := TopicAt + |TopicSlot| + |Seg2|
  const PersonalityAt := NameAt + |NameSlot| + |Seg3|

  /** `cs.find(c => c.role === role)`: the first character with that role. */
  function FindByRole(cs: seq<Character>, role: Role): (r: Option<Character>)
    ensures r.Some? ==> r.value in cs && r.value.role == role
    ensures r.Some? ==> exists k | 0 <= k < |cs| :: cs[k] == r.value && forall j | 0 <= j < k :: cs[j].role != role
    ensures r.None? <==> forall j | 0 <= j < |cs| :: cs[j].role != role
    decreases |cs|
  {
    if |cs| == 0 then None
    else if cs[0].role == role then Some(cs[0])
    else
      var r := FindByRole(cs[1..], role);
      assert r.Some? ==> cs[1..][0] == cs[1];
      r
  }

  /** The opener: `CHARACTERS.find(c => c.role === 'AGGRESSIVE') || CHARACTERS[0]`. */
  function OpenerSpeaker(): Character {
    FindByRole(Characters, Aggressive).GetOr(Characters[0])
  }

  /** `cs.filter(c => c.id !== id)`; `ExcludeIdConcat` states that the
      kept characters stay in order. */
  function ExcludeId(cs: seq<Character>, id: string): (r: seq<Character>)
    ensures |r| <= |cs|
    ensures forall c | c in r :: c in cs && c.id != id
    ensures forall c | c in cs && c.id != id :: c in r
    decreases |cs|
  {
    if |cs| == 0 then []
    else if cs[0].id != id then [cs[0]] + ExcludeId(cs[1..], id)
    else ExcludeId(cs[1..], id)
  }

  /** Filtering works piece by piece, so the kept characters keep their
      relative order. */
  lemma {:induction false} ExcludeIdConcat(a: seq<Character>, b: seq<Character>, id: string)
    ensures ExcludeId(a + b, id) == ExcludeId(a, id) + ExcludeId(b, id)
    decreases |a|
  {
    if |a| == 0 {
      assert a + b == b;
    } else {
      assert (a + b)[1..] == a[1..] + b;
      ExcludeIdConcat(a[1..], b, id);
    }
  }

  /** The candidates for a chained turn after `id` has spoken. */
  function Others(id: string): seq<Character> {
    ExcludeId(Characters, id)
  }

  /** The roster ids are pairwise distinct. */
  predicate DistinctIds(cs: seq<Character>) {
    forall i, j | 0 <= i < j < |cs| :: cs[i].id != cs[j].id
  }

  /** Three characters with ids `char1`, `char2`, `char3`, pairwise
      distinct, and none of them the human participant's id. */
  lemma RosterShape()
    ensures |Characters| == 3
    ensures Characters[0].id == "char1" && Characters[1].id == "char2" && Characters[2].id == "char3"
    ensures DistinctIds(Characters)
    ensures forall c | c in Characters :: c.id != UserId
  {
  }

  /** Exactly one character is aggressive, the first, so the opener lookup
      always settles on `char1` without needing its fallback. */
  lemma OpenerIsFirst()
    ensures forall j | 0 <= j < |Characters| :: Characters[j].role == Aggressive <==> j == 0
    ensures FindByRole(Characters, Aggressive) == Some(Char1)
    ensures OpenerSpeaker() == Char1 && OpenerSpeaker().id == "char1"
  {
    assert Characters[0].role == Aggressive;
  }

  /** Leaving out any one id leaves at least two candidates; leaving out a
      roster id leaves exactly the other two, so the index draw for a
      chained speaker is over a non-empty list. */
  lemma OthersCount(id: string)
    ensures |Others(id)| >= 2
    ensures id in {"char1", "char2", "char3"} ==> |Others(id)| == 2
    ensures forall c | c in Others(id) :: c in Characters && c.id != id
  {
    var cs := Characters;
    assert cs[1..] == [Char2, Char3] && cs[1..][1..] == [Char3] && [Char3][1..] == [];
    var keep1: seq<Character> := if id != "char1" then [Char1] else [];
    var keep2: seq<Character> := if id != "char2" then [Char2] else [];
    var keep3: seq<Character> := if id != "char3" then [Char3] else [];
    assert ExcludeId([Char3], id) == keep3;
    assert ExcludeId([Char2, Char3], id) == keep2 + keep3;
    assert Others(id) == keep1 + keep2 + keep3;
  }

  /** The fixed text of the template holds no `{`: every brace in it
      belongs to a placeholder. */
  lemma FixedTextBraceFree()
    ensures '{' !in Seg0 && '{' !in Seg1 && '{' !in Seg2 && '{' !in Seg3 && '{' !in Seg4
  {
    HeadBraceFree();
    RulesBraceFree();
  }

  lemma HeadBraceFree()
    ensures '{' !in Seg0 && '{' !in Seg1 && '{' !in Seg2 && '{' !in Seg3
  {
  }

  lemma RulesBraceFree()
    ensures '{' !in Seg4
  {
    FirstRulesBraceFree();
    LastRulesBraceFree();
  }

  lemma FirstRulesBraceFree()
    ensures '{' !in RulesHeading + Rule1 + Rule2
  {
  }

  lemma LastRulesBraceFree()
    ensures '{' !in Rule3 + Rule4 + Rule5
  {
    Rule3BraceFree();
    Rule4BraceFree();
    Rule5BraceFree();
  }

  lemma Rule3BraceFree() ensures '{' !in Rule3 {}
  lemma Rule4BraceFree() ensures '{' !in Rule4 {}
  lemma Rule5BraceFree() ensures '{' !in Rule5 {}

  /** Text that can be spliced into the template without side effects:
      no `{` to be mistaken for a placeholder, no `$` to be read as a
      replacement pattern. */
  predicate IsPlain(s: string) {
    '{' !in s && '$' !in s
  }

  /** Every name and personality on the roster is plain text. */
  lemma RosterTextPlain()
    ensures forall c | c in Characters :: IsPlain(c.name) && IsPlain(c.personality)
  {
    Char1Plain();
    Char2Plain();
    Char3Plain();
  }

  lemma Char1Plain()
    ensures IsPlain(Char1.name) && IsPlain(Char1.personality)
  {
    assert IsPlain("强势抢话型：深度控场。");
    assert IsPlain("喜欢设定讨论框架和节奏，会强力纠偏。");
    assert IsPlain("常用语：“我认为讨论应分为三个阶段...”、");
    assert IsPlain("“我们时间太散了，必须立刻确定核心目标”。");
    assert IsPlain("语气极其果断。");
  }

  lemma Char2Plain()
    ensures IsPlain(Char2.name) && IsPlain(Char2.personality)
  {
    assert IsPlain("结构总结型：枢纽人物。");
    assert IsPlain("擅长归纳共识并推进话题。");
    assert IsPlain("常用语：“刚才大家提到了A和B，");
    assert IsPlain("核心分歧已明确，现在建议进入方案对比环节...”。");
    assert IsPlain("关注深度，起到承上启下的枢纽作用。");
  }

  lemma Char3Plain()
    ensures IsPlain(Char3.name) && IsPlain(Char3.personality)
  {
    assert IsPlain("补充细节型：务实严谨。");
    assert IsPlain("关注方案的可落地性。");
    assert IsPlain("会针对某个点深挖，比如“人力成本和技术风险如何覆盖？”。");
    assert IsPlain("语气平实，只谈具体执行。");
  }

  /** A placeholder: braces at both ends and nowhere else. */
  predicate IsSlot(p: string) {
    && |p| >= 2 && p[0] == '{' && p[|p| - 1] == '}'
    && '{' !in p[1..] && '}' !in p[..|p| - 1]
  }

  /** In `a + p + b`, with no `{` in `a` and `p` a placeholder, a
      placeholder `q` starts exactly where `p` does if it is `p`, or
      somewhere inside `b`. */
  lemma SlotOccurrences(a: string, p: string, b: string, q: string)
    requires '{' !in a && IsSlot(p) && IsSlot(q)
    ensures forall j :: OccursAt(a + p + b, q, j) <==>
      || (j == |a| && p == q)
      || (j >= |a| + |p| && OccursAt(b, q, j - |a| - |p|))
  {
    var s := a + p + b;
    OccurrencesAround(a, p, b, q);
    if p == q {
      assert s[|a|..|a| + |p|] == p;
    } else if |a| + |q| <= |s| {
      var w := s[|a|..|a| + |q|];
      if |q| < |p| {
        var k := |q| - 1;
        assert w[k] == p[k] == p[..|p| - 1][k];
        assert w[k] != q[k];
      } else if |q| > |p| {
        var k := |p| - 1;
        assert w[k] == p[k] == '}';
        assert q[k] == q[..|q| - 1][k];
        assert w[k] != q[k];
      } else {
        assert w == p;
      }
    }
  }

  /** A string without `{` holds no placeholder. */
  lemma NoSlotWithoutBrace(s: string, q: string)
    requires '{' !in s && IsSlot(q)
    ensures forall j :: !OccursAt(s, q, j)
  {
    forall j ensures !OccursAt(s, q, j) {
      if 0 <= j && j + |q| <= |s| {
        assert s[j..j + |q|][0] == s[j] != '{';
      }
    }
  }

  /** Where each placeholder sits in `SYSTEM_PROMPT_BASE`: `{jobTitle}`,
      `{topic}`, `{characterName}` and `{characterPersonality}` once each,
      at the ends of `Seg0` to `Seg3`, and no other placeholder anywhere,
      `{characterRole}` included. */
  lemma TemplateSlots(q: string)
    requires IsSlot(q)
    ensures forall j :: OccursAt(SystemPromptBase, q, j) <==>
      || (q == JobTitleSlot && j == JobTitleAt)
      || (q == TopicSlot && j == TopicAt)
      || (q == NameSlot && j == NameAt)
      || (q == PersonalitySlot && j == PersonalityAt)
  {
    FixedTextBraceFree();
    SlotsAreSlots();
    InterleavedSlots(Seg0, JobTitleSlot, Seg1, TopicSlot, Seg2, NameSlot, Seg3, PersonalitySlot, Seg4, q);
  }

  /** The template's placeholders have the shape `IsSlot` describes. */
  lemma SlotsAreSlots()
    ensures IsSlot(JobTitleSlot) && IsSlot(TopicSlot) && IsSlot(NameSlot)
    ensures IsSlot(RoleSlot) && IsSlot(PersonalitySlot)
  {
  }

  /** Placeholder occurrences in fixed text interleaved with four placeholders. */
  lemma InterleavedSlots(s0: string, p1: string, s1: string, p2: string, s2: string,
                         p3: string, s3: string, p4: string, s4: string, q: string)
    requires '{' !in s0 && '{' !in s1 && '{' !in s2 && '{' !in s3 && '{' !in s4
    requires IsSlot(p1) && IsSlot(p2) && IsSlot(p3) && IsSlot(p4) && IsSlot(q)
    ensures forall j :: OccursAt(s0 + p1 + s1 + p2 + s2 + p3 + s3 + p4 + s4, q, j) <==>
      || (q == p1 && j == |s0|)
      || (q == p2 && j == |s0 + p1 + s1|)
      || (q == p3 && j == |s0 + p1 + s1 + p2 + s2|)
      || (q == p4 && j == |s0 + p1 + s1 + p2 + s2 + p3 + s3|)
  {
    var b3 := s3 + p4 + s4;
    var b2 := s2 + p3 + b3;
    var b1 := s1 + p2 + b2;
    assert s0 + p1 + s1 + p2 + s2 + p3 + s3 + p4 + s4 == s0 + p1 + b1;
    NoSlotWithoutBrace(s4, q);
    SlotOccurrences(s3, p4, s4, q);
    SlotOccurrences(s2, p3, b3, q);
    SlotOccurrences(s1, p2, b2, q);
    SlotOccurrences(s0, p1, b1, q);
  }

  /** The role placeholder never occurs in the template. */
  lemma NoRoleSlot()
    ensures forall j :: !OccursAt(SystemPromptBase, RoleSlot, j)
  {
    TemplateSlots(RoleSlot);
  }
}

=== FILE: session.dfy ===
/**
 * The discussion panel's session state machine
 * (`components/DiscussionPanel.tsx`). Each handler of the component is a
 * pure transition from one `State` to the next, together with the
 * asynchronous work it sets going (`Effect`s: a reply to await, a timer to
 * run). Randomness (`Math.random()`), the clock (`Date.now()`) and the
 * reply service's outcome are parameters of the transitions.
 *
 * Guards read the current state. The one exception is the chain check
 * after a reply, which reads the round the turn started with.
 */
module Session {
  import opened Wrappers
  import opened Types
  import opened JsString
  import opened Roster
  import opened Prompt
  import opened Dictation

  /** The round ceiling. */
  const MaxRounds: nat := 20
  /** A successful turn chains into another when the draw is below this. */
  const ContinueChance: real := 0.45
  /** How long the interruption banner stays up, in milliseconds. */
  const InterruptBannerMs: nat := 2000
  /** The `type` tag of every message the panel appends. */
  const MessageKind := "message"
  /** The recogniser error that does not stop dictation. */
  const NoSpeech := "no-speech"

  /** A value of `Math.random()`. */
  type Draw = r: real | 0.0 <= r < 1.0

  /** One autonomous turn as it was started: who speaks, the round counter
      when it started, and the transcript it sees. */
  datatype Turn = Turn(speaker: Character, roundAtStart: nat, history: seq<Message>)

  /** Work a transition leaves pending. */
  datatype Effect =
    | Generate(turn: Turn)                             // the awaited reply
    | ScheduleTurn(speaker: Character, delayMs: real)  // a timer that starts a turn
    | ScheduleInterruptReset(resetMs: nat)             // the timer that lowers the banner

  /** What the environment answers when a reply resolves: whether the
      client could be built, what the provider says to a prompt, the clock,
      and the three `Math.random()` draws of the chain decision. */
  datatype Outcome = Outcome(
    client: ClientStatus,
    provider: string -> ProviderAnswer,
    now: nat,
    chainDraw: Draw,
    delayDraw: Draw,
    pickDraw: Draw)

  /** The component's state. `topic` and `jobTitle` come from its props
      and never change; `interim` is the interim-transcript ref;
      `openerArmed` says whether the opening timer is still set. */
  datatype State = State(
    topic: string,
    jobTitle: string,
    messages: seq<Message>,
    activeCharId: Option<string>,
    isTyping: bool,
    isInterrupted: bool,
    isListening: bool,
    inputValue: string,
    interim: string,
    round: nat,
    openerArmed: bool)

  datatype Transition = Transition(next: State, effects: seq<Effect>)

  /** The first render: the given transcript, everything else at rest, the
      opening timer set. */
  function Init(topic: string, jobTitle: string, initial: seq<Message>): State {
    State(topic, jobTitle, initial, None, false, false, false, "", "", 0, true)
  }

  /** `Math.floor(d * n)`: an index into a list of `n` entries. */
  function PickIndex(n: nat, d: Draw): (k: nat)
    requires n > 0
    ensures k < n
    ensures k as real <= d * n as real < k as real + 1.0
  {
    var x := d * n as real;
    assert 0.0 <= x < n as real;
    x.Floor
  }

  /** Every index can be drawn. */
  lemma PickReachesAll(n: nat, i: nat)
    requires i < n
    ensures exists d: Draw :: PickIndex(n, d) == i
  {
    var d: Draw := i as real / n as real;
    assert d * n as real == i as real;
    assert PickIndex(n, d) == i;
  }

  /** `cs[Math.floor(d * cs.length)]`. */
  function Pick(cs: seq<Character>, d: Draw): (r: Character)
    requires |cs| > 0
    ensures r in cs
  {
    cs[PickIndex(|cs|, d)]
  }

  /** The delay before a chained turn, `1000 + Math.random() * 2000`. */
  function ChainDelay(d: Draw): (r: real)
    ensures 1000.0 <= r < 3000.0
  {
    1000.0 + d * 2000.0
  }

  /** The delay before the reply to the human, `1000 + Math.random() * 1500`. */
  function ReplyDelay(d: Draw): (r: real)
    ensures 1000.0 <= r < 2500.0
  {
    1000.0 + d * 1500.0
  }

  /** `isTyping || activeCharId`, with JavaScript truthiness: an empty id
      counts as no speaker. */
  predicate Speaking(s: State) {
    s.isTyping || (s.activeCharId.Some? && s.activeCharId.value != "")
  }

  /** `addMessage`: append one message stamped with the clock reading. */
  function AddMessage(s: State, senderId: string, senderName: string, content: string, now: nat): State {
    s.(messages := s.messages + [Message(NumberToString(now), senderId, senderName, content, now, MessageKind)])
  }

  /** `triggerAITurn` up to the awaited reply. At the ceiling nothing
      happens; otherwise the round is counted at once, the speaker is shown
      typing, and a reply is requested with the transcript as it stands. */
  function StartTurn(s: State, c: Character): (r: Transition)
    ensures s.round >= MaxRounds <==> r.effects == []
    ensures s.round >= MaxRounds ==> r.next == s
    ensures s.round < MaxRounds ==>
      r.next.round == s.round + 1 && r.next.activeCharId == Some(c.id) && r.next.isTyping
    ensures s.round < MaxRounds ==> r.effects == [Generate(Turn(c, s.round, s.messages))]
    ensures r.next.(round := s.round, activeCharId := s.activeCharId, isTyping := s.isTyping) == s
  {
    if s.round >= MaxRounds then Transition(s, [])
    else
      Transition(s.(round := s.round + 1, activeCharId := Some(c.id), isTyping := true),
                 [Generate(Turn(c, s.round, s.messages))])
  }

  /** The chain decision after a successful reply. The follow-up speaker is
      any roster member other than the one who just spoke. */
  function Chain(turn: Turn, chainDraw: Draw, delayDraw: Draw, pickDraw: Draw): (r: seq<Effect>)
    ensures |r| <= 1
    ensures r != [] <==> chainDraw < ContinueChance && turn.roundAtStart < MaxRounds
    ensures r != [] ==> r[0].ScheduleTurn? && r[0].speaker in Characters
    ensures r != [] ==> r[0].speaker.id != turn.speaker.id
    ensures r != [] ==> 1000.0 <= r[0].delayMs < 3000.0
  {
    if chainDraw < ContinueChance && turn.roundAtStart < MaxRounds then
      OthersCount(turn.speaker.id);
      [ScheduleTurn(Pick(Others(turn.speaker.id), pickDraw), ChainDelay(delayDraw))]
    else []
  }

  /** Every other roster member can be drawn as the follow-up speaker. */
  lemma ChainReachesEveryOther(turn: Turn, c: Character)
    requires c in Characters && c.id != turn.speaker.id
    requires turn.roundAtStart < MaxRounds
    ensures exists pickDraw: Draw :: Chain(turn, 0.0, 0.0, pickDraw) == [ScheduleTurn(c, 1000.0)]
  {
    var others := Others(turn.speaker.id);
    OthersCount(turn.speaker.id);
    assert c in ExcludeId(Characters, turn.speaker.id);
    var i :| 0 <= i < |others| && others[i] == c;
    PickReachesAll(|others|, i);
    var d: Draw :| PickIndex(|others|, d) == i;
    assert Chain(turn, 0.0, 0.0, d) == [ScheduleTurn(c, 1000.0)];
  }

  /** `triggerAITurn` once the awaited reply has settled. A resolved reply
      is appended under the speaker's name and may chain; a rejected one
      appends nothing. Either way the turn ends and its round stays counted. */
  function ReplySettled(s: State, turn: Turn, reply: Result<string, ServiceError>,
                        now: nat, chainDraw: Draw, delayDraw: Draw, pickDraw: Draw): (r: Transition)
    ensures !r.next.isTyping && r.next.activeCharId.None? && r.next.round == s.round
    ensures r.next.(messages := s.messages, isTyping := s.isTyping, activeCharId := s.activeCharId) == s
    ensures reply.Failure? ==> r.next.messages == s.messages && r.effects == []
    ensures reply.Success? ==>
      r.next.messages == s.messages + [Message(NumberToString(now), turn.speaker.id, turn.speaker.name, reply.value, now, MessageKind)]
    ensures reply.Success? ==> r.effects == Chain(turn, chainDraw, delayDraw, pickDraw)
  {
    var idle := s.(isTyping := false, activeCharId := None);
    if reply.Success? then
      Transition(AddMessage(idle, turn.speaker.id, turn.speaker.name, reply.value, now),
                 Chain(turn, chainDraw, delayDraw, pickDraw))
    else Transition(idle, [])
  }

  /** The reply a turn awaits: `generateAIReply` for the speaker, the
      session's topic and job title, and the history the turn saw. */
  function TurnReply(s: State, turn: Turn, o: Outcome): Result<string, ServiceError> {
    GenerateAIReply(turn.speaker, s.topic, s.jobTitle, turn.history, o.client, o.provider)
  }

  /** A turn's reply settling with what the service gives: only a client
      that cannot be built loses the turn's message; otherwise a non-empty
      text is appended, the service's reply to this turn's prompt. */
  function CompleteTurn(s: State, turn: Turn, o: Outcome): (r: Transition)
    ensures !r.next.isTyping && r.next.activeCharId.None? && r.next.round == s.round
    ensures r.next.(messages := s.messages, isTyping := s.isTyping, activeCharId := s.activeCharId) == s
    ensures o.client == ClientThrows <==> r.next.messages == s.messages
    ensures o.client == ClientThrows ==> r.effects == []
    ensures o.client == ClientReady ==>
      |r.next.messages| == |s.messages| + 1 && r.next.messages[..|s.messages|] == s.messages
    ensures o.client == ClientReady ==>
      var m := r.next.messages[|s.messages|];
      m.senderId == turn.speaker.id && m.senderName == turn.speaker.name && m.timestamp == o.now &&
      m.content != [] && Success(m.content) == TurnReply(s, turn, o)
    ensures o.client == ClientReady ==> r.effects == Chain(turn, o.chainDraw, o.delayDraw, o.pickDraw)
  {
    ReplySettled(s, turn, TurnReply(s, turn, o), o.now, o.chainDraw, o.delayDraw, o.pickDraw)
  }

  /** `handleSendMessage`. A blank input is ignored. Otherwise the input is
      sent as typed (untrimmed), the buffers are cleared, dictation and the
      opening timer stop, an interruption is flagged when a speaker is
      active, and a reply from a random roster member is scheduled. */
  function Submit(s: State, now: nat, delayDraw: Draw, pickDraw: Draw): (r: Transition)
    ensures AllWhiteSpace(s.inputValue) ==> r.next == s && r.effects == []
    ensures !AllWhiteSpace(s.inputValue) ==>
      r.next.messages == s.messages + [Message(NumberToString(now), UserId, UserName, s.inputValue, now, MessageKind)]
    ensures !AllWhiteSpace(s.inputValue) ==>
      r.next.inputValue == [] && r.next.interim == [] && !r.next.isListening && !r.next.openerArmed
    ensures !AllWhiteSpace(s.inputValue) ==> r.next.isInterrupted == (s.isInterrupted || Speaking(s))
    ensures r.next.round == s.round && r.next.isTyping == s.isTyping && r.next.activeCharId == s.activeCharId
    ensures r.next.topic == s.topic && r.next.jobTitle == s.jobTitle
    ensures !AllWhiteSpace(s.inputValue) ==>
      |r.effects| >= 1 && r.effects[|r.effects| - 1].ScheduleTurn? &&
      r.effects[|r.effects| - 1].speaker in Characters &&
      1000.0 <= r.effects[|r.effects| - 1].delayMs < 2500.0
    ensures ScheduleInterruptReset(InterruptBannerMs) in r.effects <==> !AllWhiteSpace(s.inputValue) && Speaking(s)
    ensures forall i | 0 <= i < |r.effects| - 1 :: r.effects[i] == ScheduleInterruptReset(InterruptBannerMs)
    ensures !AllWhiteSpace(s.inputValue) ==> |r.effects| == if Speaking(s) then 2 else 1
  {
    // `Trim(text) == []` holds exactly when `AllWhiteSpace(text)` (the
    // contract of `Trim`), so the trimmed-empty test is written directly.
    if AllWhiteSpace(s.inputValue) then Transition(s, [])
    else Transition(Sent(s, now), SendEffects(s, delayDraw, pickDraw))
  }

  /** The state right after a non-blank send. */
  function Sent(s: State, now: nat): (r: State)
    ensures r.messages == s.messages + [Message(NumberToString(now), UserId, UserName, s.inputValue, now, MessageKind)]
    ensures r.inputValue == [] && r.interim == [] && !r.isListening && !r.openerArmed
    ensures r.isInterrupted == (s.isInterrupted || Speaking(s))
    ensures r.round == s.round && r.isTyping == s.isTyping && r.activeCharId == s.activeCharId
    ensures r.topic == s.topic && r.jobTitle == s.jobTitle
  {
    var flagged := if Speaking(s) then s.(isInterrupted := true) else s;
    var quiet := flagged.(isListening := false, openerArmed := false);
    AddMessage(quiet, UserId, UserName, s.inputValue, now).(inputValue := [], interim := [])
  }

  /** What a non-blank send schedules: the banner timer when it
      interrupts, then the reply of a random roster member. */
  function SendEffects(s: State, delayDraw: Draw, pickDraw: Draw): (r: seq<Effect>)
    ensures |r| >= 1 && r[|r| - 1].ScheduleTurn? && r[|r| - 1].speaker in Characters
    ensures 1000.0 <= r[|r| - 1].delayMs < 2500.0
    ensures forall i | 0 <= i < |r| - 1 :: r[i] == ScheduleInterruptReset(InterruptBannerMs)
    ensures |r| == if Speaking(s) then 2 else 1
    ensures r[|r| - 1] == ScheduleTurn(Pick(Characters, pickDraw), ReplyDelay(delayDraw))
    ensures ScheduleInterruptReset(InterruptBannerMs) in r <==> Speaking(s)
  {
    var reset := if Speaking(s) then [ScheduleInterruptReset(InterruptBannerMs)] else [];
    reset + [ScheduleTurn(Pick(Characters, pickDraw), ReplyDelay(delayDraw))]
  }
  /** Anyone on the roster may answer a send: for every character there is
      a draw that schedules that character's reply. */
  lemma SendReachesEveryone(s: State, now: nat, c: Character)
    requires !AllWhiteSpace(s.inputValue) && c in Characters
    ensures exists pickDraw: Draw ::
      var r := Submit(s, now, 0.0, pickDraw);
      r.effects[|r.effects| - 1] == ScheduleTurn(c, 1000.0)
  {
    var i :| 0 <= i < |Characters| && Characters[i] == c;
    PickReachesAll(|Characters|, i);
    var d: Draw :| PickIndex(|Characters|, d) == i;
    var r := Submit(s, now, 0.0, d);
    assert r.effects[|r.effects| - 1] == ScheduleTurn(c, 1000.0);
  }


  /** The banner timer: lower the interruption flag, nothing else. */
  function InterruptTimeout(s: State): (r: Transition)
    ensures !r.next.isInterrupted && r.effects == []
    ensures r.next.(isInterrupted := s.isInterrupted) == s
  {
    Transition(s.(isInterrupted := false), [])
  }

  /** The recogniser's `onresult`: finalised text is appended to the input,
      interim text replaces the interim buffer and never reaches the input. */
  function HearSpeech(s: State, results: seq<SpeechResult>, resultIndex: nat): (r: Transition)
    ensures r.effects == []
    ensures r.next.inputValue == s.inputValue + FinalText(Pending(results, resultIndex))
    ensures r.next.interim == InterimText(Pending(results, resultIndex))
    ensures r.next.(inputValue := s.inputValue, interim := s.interim) == s
  {
    var finalText := FinalText(Pending(results, resultIndex));
    var next := if finalText != [] then s.(inputValue := s.inputValue + finalText) else s;
    Transition(next.(interim := InterimText(Pending(results, resultIndex))), [])
  }

  /** Results that are all interim leave the input as it was and land
      whole in the interim buffer. */
  lemma InterimNeverReachesInput(s: State, results: seq<SpeechResult>, resultIndex: nat)
    requires forall i | 0 <= i < |Pending(results, resultIndex)| :: !Pending(results, resultIndex)[i].isFinal
    ensures HearSpeech(s, results, resultIndex).next.inputValue == s.inputValue
    ensures HearSpeech(s, results, resultIndex).next.interim == AllText(Pending(results, resultIndex))
  {
    InterimOnlyIsNotFinal(Pending(results, resultIndex));
  }

  /** Every dictated character lands in exactly one of the input's new
      tail and the interim buffer. */
  lemma DictationLosesNothing(s: State, results: seq<SpeechResult>, resultIndex: nat)
    ensures var r := HearSpeech(s, results, resultIndex).next;
      s.inputValue <= r.inputValue &&
      multiset(r.inputValue[|s.inputValue|..]) + multiset(r.interim) == multiset(AllText(Pending(results, resultIndex)))
  {
    var r := HearSpeech(s, results, resultIndex).next;
    assert r.inputValue[|s.inputValue|..] == FinalText(Pending(results, resultIndex));
    SplitIsPartition(Pending(results, resultIndex));
  }

  /** The recogniser's `onerror`: any error but silence stops dictation. */
  function SpeechError(s: State, code: string): (r: Transition)
    ensures r.effects == []
    ensures r.next.isListening <==> s.isListening && code == NoSpeech
    ensures r.next.(isListening := s.isListening) == s
  {
    if code != NoSpeech then Transition(s.(isListening := false), []) else Transition(s, [])
  }

  /** The microphone button. Starting dictation cancels the opening timer;
      neither direction touches the input or the interim buffer. */
  function ToggleListening(s: State): (r: Transition)
    ensures r.effects == []
    ensures r.next.isListening == !s.isListening
    ensures r.next.inputValue == s.inputValue && r.next.interim == s.interim
    ensures !s.isListening ==> !r.next.openerArmed
    ensures s.isListening ==> r.next.openerArmed == s.openerArmed
    ensures r.next.(isListening := s.isListening, openerArmed := s.openerArmed) == s
  {
    if s.isListening then Transition(s.(isListening := false), [])
    else Transition(s.(openerArmed := false, isListening := true), [])
  }

  /** The opening timer, three seconds after the first render: if it was
      not cancelled and the human has neither spoken, typed nor started
      dictation, the aggressive character opens. It fires once. */
  function OpenerFire(s: State): (r: Transition)
    ensures !r.next.openerArmed && r.next.messages == s.messages
    ensures r.effects != [] <==>
      s.openerArmed && |s.messages| == 0 && !s.isListening && |s.inputValue| == 0 && s.round < MaxRounds
    ensures r.effects != [] ==>
      r.effects == [Generate(Turn(Char1, s.round, []))] && r.next.activeCharId == Some("char1")
    ensures r.effects == [] ==> r.next == s.(openerArmed := false)
    ensures r.effects != [] ==>
      r.next == s.(openerArmed := false, round := s.round + 1, activeCharId := Some("char1"), isTyping := true)
  {
    OpenerIsFirst();
    var disarmed := s.(openerArmed := false);
    if s.openerArmed && |s.messages| == 0 && !s.isListening && |s.inputValue| == 0 then
      StartTurn(disarmed, OpenerSpeaker())
    else Transition(disarmed, [])
  }

  /** The text area's `onChange`: the input becomes what was typed. */
  function Edit(s: State, text: string): (r: Transition)
    ensures r.effects == [] && r.next.inputValue == text
    ensures r.next.(inputValue := s.inputValue) == s
  {
    Transition(s.(inputValue := text), [])
  }
}

=== FILE: session_run.dfy ===
/**
 * A running discussion session: the panel's state together with the work
 * it has left pending — timers not yet fired, replies not yet resolved.
 * Pending entries may fire in any order, so the properties below hold for
 * every timing of the timers and every latency of the reply service.
 */
module SessionRun {
  import opened Wrappers
  import opened Types
  import opened JsString
  import opened Roster
  import opened Prompt
  import opened Dictation
  import opened Session

  datatype World = World(state: State, pending: seq<Effect>)

  /** What can happen next to a running session. */
  datatype Stimulus =
    | Resolve(index: nat, o: Outcome)   // pending entry `index` fires or resolves
    | OpenerTimer                       // the three-second opening timer
    | SendButton(now: nat, delayDraw: Draw, pickDraw: Draw)
    | Heard(results: seq<SpeechResult>, resultIndex: nat)
    | RecognitionError(code: string)
    | MicButton
    | Typed(text: string)

  /** The session right after the first render. */
  function Start(topic: string, jobTitle: string, initial: seq<Message>): World {
    World(Init(topic, jobTitle, initial), [])
  }

  /** What a pending entry does when it fires. */
  function Fire(s: State, e: Effect, o: Outcome): Transition {
    match e
    case ScheduleTurn(c, _) => StartTurn(s, c)
    case Generate(turn) => CompleteTurn(s, turn, o)
    case ScheduleInterruptReset(_) => InterruptTimeout(s)
  }

  /** `xs` with entry `i` taken out. */
  function Without<T>(xs: seq<T>, i: nat): (r: seq<T>)
    requires i < |xs|
    ensures |r| == |xs| - 1
    ensures forall j | 0 <= j < |r| :: r[j] == if j < i then xs[j] else xs[j + 1]
  {
    xs[..i] + xs[i + 1..]
  }

  function Apply(pending: seq<Effect>, t: Transition): World {
    World(t.next, pending + t.effects)
  }

  function Step(w: World, x: Stimulus): World {
    match x
    case Resolve(i, o) =>
      if i < |w.pending| then Apply(Without(w.pending, i), Fire(w.state, w.pending[i], o)) else w
    case OpenerTimer => Apply(w.pending, OpenerFire(w.state))
    case SendButton(now, delayDraw, pickDraw) => Apply(w.pending, Submit(w.state, now, delayDraw, pickDraw))
    case Heard(results, resultIndex) => Apply(w.pending, HearSpeech(w.state, results, resultIndex))
    case RecognitionError(code) => Apply(w.pending, SpeechError(w.state, code))
    case MicButton => Apply(w.pending, ToggleListening(w.state))
    case Typed(text) => Apply(w.pending, Edit(w.state, text))
  }

  function Run(w: World, xs: seq<Stimulus>): World
    decreases |xs|
  {
    if |xs| == 0 then w else Run(Step(w, xs[0]), xs[1..])
  }

  /** A message from the human or from a roster character, under that
      participant's own name. */
  predicate KnownSender(m: Message) {
    (m.senderId == UserId && m.senderName == UserName) ||
    exists c | c in Characters :: m.senderId == c.id && m.senderName == c.name
  }

  /** Pending work names only roster characters, and a pending reply
      belongs to a turn started below the ceiling. */
  predicate PendingOk(e: Effect) {
    match e
    case Generate(turn) => turn.speaker in Characters && turn.roundAtStart < MaxRounds
    case ScheduleTurn(c, _) => c in Characters
    case ScheduleInterruptReset(_) => true
  }

  predicate Good(w: World) {
    w.state.round <= MaxRounds && forall i | 0 <= i < |w.pending| :: PendingOk(w.pending[i])
  }

  /** Every message appended from index `from` on has a known sender. */
  predicate KnownFrom(ms: seq<Message>, from: nat) {
    forall k | from <= k < |ms| :: KnownSender(ms[k])
  }

  lemma StartIsGood(topic: string, jobTitle: string, initial: seq<Message>)
    ensures Good(Start(topic, jobTitle, initial))
  {
  }

  /** Whatever fires next, the entries it leaves pending are good, the
      round stays within the ceiling and does not go down, and any message
      it appends has a known sender. */
  lemma FiredOk(s: State, e: Effect, o: Outcome)
    requires PendingOk(e) && s.round <= MaxRounds
    ensures forall j | 0 <= j < |Fire(s, e, o).effects| :: PendingOk(Fire(s, e, o).effects[j])
    ensures s.round <= Fire(s, e, o).next.round <= MaxRounds
    ensures s.messages <= Fire(s, e, o).next.messages
    ensures KnownFrom(Fire(s, e, o).next.messages, |s.messages|)
  {
    match e
    case ScheduleTurn(c, _) =>
    case Generate(turn) =>
      assert Fire(s, e, o) == ReplySettled(s, turn, TurnReply(s, turn, o), o.now, o.chainDraw, o.delayDraw, o.pickDraw);
      ReplyOk(s, turn, TurnReply(s, turn, o), o.now, o.chainDraw, o.delayDraw, o.pickDraw);
    case ScheduleInterruptReset(_) =>
  }

  /** The reply case: the message carries the speaker's id and name, and
      a chained turn names a roster character, whatever the reply. */
  lemma ReplyOk(s: State, turn: Turn, reply: Result<string, ServiceError>,
                now: nat, chainDraw: Draw, delayDraw: Draw, pickDraw: Draw)
    requires turn.speaker in Characters
    ensures var t := ReplySettled(s, turn, reply, now, chainDraw, delayDraw, pickDraw);
      (forall j | 0 <= j < |t.effects| :: PendingOk(t.effects[j])) &&
      s.messages <= t.next.messages && KnownFrom(t.next.messages, |s.messages|)
  {
    var t := ReplySettled(s, turn, reply, now, chainDraw, delayDraw, pickDraw);
    if |t.effects| > 0 {
      assert |t.effects| == 1 && t.effects[0].ScheduleTurn? && t.effects[0].speaker in Characters;
    }
    if reply.Success? {
      var m := t.next.messages[|s.messages|];
      assert m.senderId == turn.speaker.id && m.senderName == turn.speaker.name;
      assert KnownSender(m);
    }
  }

  /** A pending entry that fires leaves the world good, only appends
      messages from known senders, and never lowers the round. */
  lemma FirePreserves(w: World, i: nat, o: Outcome)
    requires Good(w) && i < |w.pending|
    ensures Good(Step(w, Resolve(i, o)))
    ensures w.state.messages <= Step(w, Resolve(i, o)).state.messages
    ensures KnownFrom(Step(w, Resolve(i, o)).state.messages, |w.state.messages|)
    ensures w.state.round <= Step(w, Resolve(i, o)).state.round
  {
    var e := w.pending[i];
    assert PendingOk(e);
    var t := Fire(w.state, e, o);
    FiredOk(w.state, e, o);
    var rest := Without(w.pending, i);
    assert forall j | 0 <= j < |rest| :: PendingOk(rest[j]);
    AppendKeepsGood(rest, t);
    assert Apply(rest, t) == Step(w, Resolve(i, o));
  }

  /** The same for every stimulus. */
  lemma StepPreserves(w: World, x: Stimulus)
    requires Good(w)
    ensures Good(Step(w, x))
    ensures w.state.messages <= Step(w, x).state.messages
    ensures KnownFrom(Step(w, x).state.messages, |w.state.messages|)
    ensures w.state.round <= Step(w, x).state.round
  {
    match x
    case Resolve(i, o) =>
      if i < |w.pending| {
        FirePreserves(w, i, o);
      }
    case OpenerTimer => OpenerPreserves(w);
    case SendButton(now, delayDraw, pickDraw) => SendPreserves(w, now, delayDraw, pickDraw);
    case Heard(results, resultIndex) => ReactOk(w, HearSpeech(w.state, results, resultIndex));
    case RecognitionError(code) => ReactOk(w, SpeechError(w.state, code));
    case MicButton => ReactOk(w, ToggleListening(w.state));
    case Typed(text) => ReactOk(w, Edit(w.state, text));
  }

  /** The opening timer keeps the world good. */
  lemma OpenerPreserves(w: World)
    requires Good(w)
    ensures Good(Step(w, OpenerTimer))
    ensures w.state.messages == Step(w, OpenerTimer).state.messages
    ensures w.state.round <= Step(w, OpenerTimer).state.round
  {
    OpenerIsFirst();
    var t := OpenerFire(w.state);
    assert forall j | 0 <= j < |t.effects| :: PendingOk(t.effects[j]);
    ReactOk(w, t);
  }

  /** Sending keeps the world good and appends the human's message. */
  lemma SendPreserves(w: World, now: nat, delayDraw: Draw, pickDraw: Draw)
    requires Good(w)
    ensures Good(Step(w, SendButton(now, delayDraw, pickDraw)))
    ensures w.state.messages <= Step(w, SendButton(now, delayDraw, pickDraw)).state.messages
    ensures KnownFrom(Step(w, SendButton(now, delayDraw, pickDraw)).state.messages, |w.state.messages|)
    ensures w.state.round == Step(w, SendButton(now, delayDraw, pickDraw)).state.round
  {
    var t := Submit(w.state, now, delayDraw, pickDraw);
    SubmitOk(w.state, now, delayDraw, pickDraw);
    ReactOk(w, t);
    assert Step(w, SendButton(now, delayDraw, pickDraw)) == Apply(w.pending, t);
  }

  /** What a send leaves pending names roster characters only, and the
      message it appends is the human's. */
  lemma SubmitOk(s: State, now: nat, delayDraw: Draw, pickDraw: Draw)
    ensures forall j | 0 <= j < |Submit(s, now, delayDraw, pickDraw).effects| ::
      PendingOk(Submit(s, now, delayDraw, pickDraw).effects[j])
    ensures s.messages <= Submit(s, now, delayDraw, pickDraw).next.messages
    ensures forall k | |s.messages| <= k < |Submit(s, now, delayDraw, pickDraw).next.messages| ::
      KnownSender(Submit(s, now, delayDraw, pickDraw).next.messages[k])
  {
    if !AllWhiteSpace(s.inputValue) {
      var t := Submit(s, now, delayDraw, pickDraw);
      var es := SendEffects(s, delayDraw, pickDraw);
      assert t.effects == es && t.next == Sent(s, now);
      forall j | 0 <= j < |es| ensures PendingOk(es[j]) {
        if j < |es| - 1 {
          assert es[j] == ScheduleInterruptReset(InterruptBannerMs);
        }
      }
      assert KnownSender(t.next.messages[|s.messages|]);
    }
  }

  /** A handler whose new pending entries are good, which keeps the round
      in bounds and only appends known senders, keeps the world good. */
  lemma ReactOk(w: World, t: Transition)
    requires Good(w)
    requires forall j | 0 <= j < |t.effects| :: PendingOk(t.effects[j])
    requires w.state.round <= t.next.round <= MaxRounds
    requires w.state.messages <= t.next.messages
    requires forall k | |w.state.messages| <= k < |t.next.messages| :: KnownSender(t.next.messages[k])
    ensures Good(Apply(w.pending, t))
    ensures KnownFrom(Apply(w.pending, t).state.messages, |w.state.messages|)
  {
    AppendKeepsGood(w.pending, t);
  }

  /** Adding good entries to a good pending list keeps it good. */
  lemma AppendKeepsGood(pending: seq<Effect>, t: Transition)
    requires forall j | 0 <= j < |pending| :: PendingOk(pending[j])
    requires forall j | 0 <= j < |t.effects| :: PendingOk(t.effects[j])
    ensures forall j | 0 <= j < |Apply(pending, t).pending| :: PendingOk(Apply(pending, t).pending[j])
  {
    var all := Apply(pending, t).pending;
    forall j | 0 <= j < |all| ensures PendingOk(all[j]) {
      if j < |pending| {
        assert all[j] == pending[j];
      } else {
        assert all[j] == t.effects[j - |pending|];
      }
    }
  }

  /** Over any sequence of stimuli: the round never passes the ceiling and
      never goes down, the transcript only grows, and every message added
      comes from the human or a roster character under their own name. */
  lemma {:induction false} RunPreserves(w: World, xs: seq<Stimulus>)
    requires Good(w)
    ensures Good(Run(w, xs))
    ensures Run(w, xs).state.round <= MaxRounds
    ensures w.state.round <= Run(w, xs).state.round
    ensures w.state.messages <= Run(w, xs).state.messages
    ensures KnownFrom(Run(w, xs).state.messages, |w.state.messages|)
    decreases |xs|
  {
    if |xs| > 0 {
      var w' := Step(w, xs[0]);
      StepPreserves(w, xs[0]);
      RunPreserves(w', xs[1..]);
      var ms := Run(w', xs[1..]).state.messages;
      forall k | |w.state.messages| <= k < |ms| ensures KnownSender(ms[k]) {
        if k < |w'.state.messages| {
          assert ms[k] == w'.state.messages[k];
        }
      }
    }
  }

  /** A whole session from the first render: the round stays within the
      ceiling, the initial transcript is kept as it was, and when it held
      only known senders, so does every later transcript. */
  lemma SessionInvariants(topic: string, jobTitle: string, initial: seq<Message>, xs: seq<Stimulus>)
    ensures Run(Start(topic, jobTitle, initial), xs).state.round <= MaxRounds
    ensures initial <= Run(Start(topic, jobTitle, initial), xs).state.messages
    ensures KnownFrom(initial, 0) ==> KnownFrom(Run(Start(topic, jobTitle, initial), xs).state.messages, 0)
  {
    var w := Start(topic, jobTitle, initial);
    RunPreserves(w, xs);
    var ms := Run(w, xs).state.messages;
    if KnownFrom(initial, 0) {
      forall k | 0 <= k < |ms| ensures KnownSender(ms[k]) {
        if k < |initial| {
          assert ms[k] == initial[k];
        }
      }
    }
  }

  /** In a good world, the ceiling test of the chain decision never fails:
      a pending reply was started below the ceiling, so whether it chains
      depends on the draw alone. */
  lemma ChainCheckIsMoot(w: World, i: nat, chainDraw: Draw, delayDraw: Draw, pickDraw: Draw)
    requires Good(w) && i < |w.pending| && w.pending[i].Generate?
    ensures Chain(w.pending[i].turn, chainDraw, delayDraw, pickDraw) != [] <==> chainDraw < ContinueChance
  {
    assert PendingOk(w.pending[i]);
  }

  /** The state with the interruption flag forgotten. */
  function EraseState(s: State): State {
    s.(isInterrupted := false)
  }

  /** The world with the interruption flag forgotten. */
  function Erase(w: World): World {
    World(EraseState(w.state), w.pending)
  }

  /** A reply resolving does not read the interruption flag. */
  lemma CompleteIgnoresInterrupt(s1: State, s2: State, turn: Turn, o: Outcome)
    requires EraseState(s1) == EraseState(s2)
    ensures CompleteTurn(s1, turn, o).effects == CompleteTurn(s2, turn, o).effects
    ensures EraseState(CompleteTurn(s1, turn, o).next) == EraseState(CompleteTurn(s2, turn, o).next)
  {
    assert s1.topic == s2.topic && s1.jobTitle == s2.jobTitle;
    var reply := GenerateAIReply(turn.speaker, s1.topic, s1.jobTitle, turn.history, o.client, o.provider);
    assert reply == GenerateAIReply(turn.speaker, s2.topic, s2.jobTitle, turn.history, o.client, o.provider);
  }

  /** Sending reads the flag only to raise it. */
  lemma SubmitIgnoresInterrupt(s1: State, s2: State, now: nat, delayDraw: Draw, pickDraw: Draw)
    requires EraseState(s1) == EraseState(s2)
    ensures Submit(s1, now, delayDraw, pickDraw).effects == Submit(s2, now, delayDraw, pickDraw).effects
    ensures EraseState(Submit(s1, now, delayDraw, pickDraw).next) == EraseState(Submit(s2, now, delayDraw, pickDraw).next)
  {
    assert s1.inputValue == s2.inputValue && Speaking(s1) == Speaking(s2);
  }

  /** Two transitions that agree in everything but the interruption flag. */
  predicate AlikeButFlag(t1: Transition, t2: Transition) {
    t1.effects == t2.effects && EraseState(t1.next) == EraseState(t2.next)
  }

  /** A pending entry firing does not read the flag. */
  lemma FireIgnoresInterrupt(s1: State, s2: State, e: Effect, o: Outcome)
    requires EraseState(s1) == EraseState(s2)
    ensures AlikeButFlag(Fire(s1, e, o), Fire(s2, e, o))
  {
    match e
    case ScheduleTurn(c, _) =>
    case Generate(turn) => CompleteIgnoresInterrupt(s1, s2, turn, o);
    case ScheduleInterruptReset(_) =>
  }

  /** Transitions alike but for the flag leave worlds alike but for it. */
  lemma ApplyIgnoresInterrupt(pending: seq<Effect>, t1: Transition, t2: Transition)
    requires AlikeButFlag(t1, t2)
    ensures Erase(Apply(pending, t1)) == Erase(Apply(pending, t2))
  {
  }

  /** The interruption flag is advisory: two worlds that differ only in it
      react to every stimulus alike in everything else. */
  lemma StepIgnoresInterrupt(w1: World, w2: World, x: Stimulus)
    requires Erase(w1) == Erase(w2)
    ensures Erase(Step(w1, x)) == Erase(Step(w2, x))
  {
    var s1, s2 := w1.state, w2.state;
    assert EraseState(s1) == EraseState(s2) && w1.pending == w2.pending;
    match x
    case Resolve(i, o) =>
      if i < |w1.pending| {
        FireIgnoresInterrupt(s1, s2, w1.pending[i], o);
        ApplyIgnoresInterrupt(Without(w1.pending, i), Fire(s1, w1.pending[i], o), Fire(s2, w1.pending[i], o));
      }
    case OpenerTimer =>
      ApplyIgnoresInterrupt(w1.pending, OpenerFire(s1), OpenerFire(s2));
    case SendButton(now, delayDraw, pickDraw) =>
      SubmitIgnoresInterrupt(s1, s2, now, delayDraw, pickDraw);
      ApplyIgnoresInterrupt(w1.pending, Submit(s1, now, delayDraw, pickDraw), Submit(s2, now, delayDraw, pickDraw));
    case Heard(results, resultIndex) =>
      ApplyIgnoresInterrupt(w1.pending, HearSpeech(s1, results, resultIndex), HearSpeech(s2, results, resultIndex));
    case RecognitionError(code) =>
      ApplyIgnoresInterrupt(w1.pending, SpeechError(s1, code), SpeechError(s2, code));
    case MicButton =>
      ApplyIgnoresInterrupt(w1.pending, ToggleListening(s1), ToggleListening(s2));
    case Typed(text) =>
      ApplyIgnoresInterrupt(w1.pending, Edit(s1, text), Edit(s2, text));
  }

  /** Over a whole run, the flag never changes the transcript, the round,
      the turn in progress, the input or what is pending. */
  lemma {:induction false} InterruptIsAdvisory(w1: World, w2: World, xs: seq<Stimulus>)
    requires Erase(w1) == Erase(w2)
    ensures Erase(Run(w1, xs)) == Erase(Run(w2, xs))
    decreases |xs|
  {
    if |xs| > 0 {
      StepIgnoresInterrupt(w1, w2, xs[0]);
      InterruptIsAdvisory(Step(w1, xs[0]), Step(w2, xs[0]), xs[1..]);
    }
  }

  /** Two stimuli in a row. */
  lemma RunTwo(w: World, a: Stimulus, b: Stimulus)
    ensures Run(w, [a, b]) == Step(Step(w, a), b)
  {
    assert [a, b][1..] == [b];
    assert [b][1..] == [];
    assert Run(w, [a, b]) == Run(Step(w, a), [b]);
    assert Run(Step(w, a), [b]) == Run(Step(Step(w, a), b), []);
  }

  /** Three stimuli in a row. */
  lemma RunThree(w: World, a: Stimulus, b: Stimulus, c: Stimulus)
    ensures Run(w, [a, b, c]) == Step(Step(Step(w, a), b), c)
  {
    assert [a, b, c][1..] == [b, c];
    assert Run(w, [a, b, c]) == Run(Step(w, a), [b, c]);
    RunTwo(Step(w, a), b, c);
  }

  /** Nobody acts for three seconds: the aggressive character opens at
      round one, and once the reply resolves the transcript holds its
      message and the turn is over. */
  lemma OpenerScenario(topic: string, jobTitle: string, o: Outcome)
    requires o.client == ClientReady
    ensures Step(Start(topic, jobTitle, []), OpenerTimer).state.activeCharId == Some("char1")
    ensures Step(Start(topic, jobTitle, []), OpenerTimer).state.round == 1
    ensures Step(Start(topic, jobTitle, []), OpenerTimer).pending == [Generate(Turn(Char1, 0, []))]
    ensures var w := Run(Start(topic, jobTitle, []), [OpenerTimer, Resolve(0, o)]);
      w.state.round == 1 && !w.state.isTyping && w.state.activeCharId.None? &&
      |w.state.messages| == 1 && w.state.messages[0].senderId == "char1"
  {
    var w1 := Step(Start(topic, jobTitle, []), OpenerTimer);
    var t := CompleteTurn(w1.state, Turn(Char1, 0, []), o);
    assert Step(w1, Resolve(0, o)) == Apply([], t);
    RunTwo(Start(topic, jobTitle, []), OpenerTimer, Resolve(0, o));
  }

  /** Sending while the opener is still typing raises the interruption
      flag; the banner timer lowers it again without touching the
      transcript. */
  lemma InterruptScenario(topic: string, jobTitle: string, text: string, now: nat, o: Outcome)
    requires !AllWhiteSpace(text)
    ensures var w := Run(Start(topic, jobTitle, []), [OpenerTimer, Typed(text), SendButton(now, 0.0, 0.0)]);
      w.state.isInterrupted && |w.pending| == 3 && w.pending[1] == ScheduleInterruptReset(InterruptBannerMs) &&
      !Step(w, Resolve(1, o)).state.isInterrupted &&
      Step(w, Resolve(1, o)).state.messages == w.state.messages
  {
    var w1 := Step(Start(topic, jobTitle, []), OpenerTimer);
    var w2 := Step(w1, Typed(text));
    assert w2.state.isTyping && |w2.pending| == 1;
    var w3 := Step(w2, SendButton(now, 0.0, 0.0));
    RunThree(Start(topic, jobTitle, []), OpenerTimer, Typed(text), SendButton(now, 0.0, 0.0));
    assert w3.pending[1] == ScheduleInterruptReset(InterruptBannerMs);
  }

  /** Dictation: an interim "你" only reaches the interim buffer; the final
      "你好" lands in the input, and the interim buffer empties. */
  lemma DictationScenario(topic: string, jobTitle: string)
    ensures var w := Run(Start(topic, jobTitle, []), [MicButton, Heard([SpeechResult(false, "你")], 0)]);
      w.state.inputValue == "" && w.state.interim == "你" && w.state.isListening
    ensures var w := Run(Start(topic, jobTitle, []),
                         [MicButton, Heard([SpeechResult(false, "你")], 0), Heard([SpeechResult(true, "你好")], 0)]);
      w.state.inputValue == "你好" && w.state.interim == "" && w.state.isListening && !w.state.openerArmed
  {
    var r1 := [SpeechResult(false, "你")];
    var r2 := [SpeechResult(true, "你好")];
    assert r1[0..] == r1 && r1[..0] == [];
    assert r2[0..] == r2 && r2[..0] == [];
    assert FinalText(r1) == "" && InterimText(r1) == "你";
    assert FinalText(r2) == "你好" && InterimText(r2) == "";
    RunTwo(Start(topic, jobTitle, []), MicButton, Heard(r1, 0));
    RunThree(Start(topic, jobTitle, []), MicButton, Heard(r1, 0), Heard(r2, 0));
  }

  /** At the ceiling, the human's message is still appended and a reply is
      still scheduled, but when its timer fires no turn starts. */
  lemma CeilingScenario(w: World, now: nat, delayDraw: Draw, pickDraw: Draw, o: Outcome)
    requires w.state.round == MaxRounds && !AllWhiteSpace(w.state.inputValue)
    ensures var w1 := Step(w, SendButton(now, delayDraw, pickDraw));
      |w1.state.messages| == |w.state.messages| + 1 &&
      w1.state.messages[|w.state.messages|].senderId == UserId &&
      |w1.pending| > 0 && w1.pending[|w1.pending| - 1].ScheduleTurn? &&
      var w2 := Step(w1, Resolve(|w1.pending| - 1, o));
      w2.state == w1.state && w2.pending == w1.pending[..|w1.pending| - 1]
  {
    var t := Submit(w.state, now, delayDraw, pickDraw);
    var w1 := Apply(w.pending, t);
    assert Step(w, SendButton(now, delayDraw, pickDraw)) == w1;
    var last := |w1.pending| - 1;
    assert w1.pending[last] == t.effects[|t.effects| - 1];
    var c := w1.pending[last].speaker;
    assert Fire(w1.state, w1.pending[last], o) == StartTurn(w1.state, c);
    assert StartTurn(w1.state, c) == Transition(w1.state, []);
    assert Without(w1.pending, last) == w1.pending[..last];
    assert Step(w1, Resolve(last, o)) == Apply(w1.pending[..last], Transition(w1.state, []));
  }
}

=== FILE: stale_closures.dfy ===
/**
 * The panel's callbacks as written: each reads the component state of the
 * render that created it, not the live state
 * (`components/DiscussionPanel.tsx`). Only the round counter is advanced
 * on the live state, because it is set through a functional update. The
 * members here model that reading and exhibit where it departs from the
 * live-state model the rest of the project uses.
 */
module StaleClosures {
  import opened Wrappers
  import opened Types
  import opened JsString
  import opened Roster
  import opened Prompt
  import opened Session
  import opened SessionRun

  /** What a callback sees of the render it was created in. */
  datatype Snapshot = Snapshot(round: nat, messages: seq<Message>, isListening: bool, inputValue: string)

  function SnapshotOf(s: State): Snapshot {
    Snapshot(s.round, s.messages, s.isListening, s.inputValue)
  }

  /** `triggerAITurn` as written: the ceiling test and the history come
      from the snapshot; the increment lands on the live round. */
  function StartTurnAsWritten(s: State, seen: Snapshot, c: Character): (r: Transition)
    ensures seen.round >= MaxRounds ==> r.next == s && r.effects == []
    ensures seen.round < MaxRounds ==> r.next.round == s.round + 1
    ensures seen.round < MaxRounds ==> r.effects == [Generate(Turn(c, seen.round, seen.messages))]
    ensures seen.round < MaxRounds ==>
      r.next == s.(round := s.round + 1, activeCharId := Some(c.id), isTyping := true)
  {
    if seen.round >= MaxRounds then Transition(s, [])
    else
      Transition(s.(round := s.round + 1, activeCharId := Some(c.id), isTyping := true),
                 [Generate(Turn(c, seen.round, seen.messages))])
  }

  /** One turn as written, from its start to its reply resolving with `text`. */
  function TurnAsWritten(s: State, seen: Snapshot, c: Character, text: string, o: Outcome): Transition
    requires seen.round < MaxRounds
  {
    ReplySettled(StartTurnAsWritten(s, seen, c).next, Turn(c, seen.round, seen.messages), Success(text),
                 o.now, o.chainDraw, o.delayDraw, o.pickDraw)
  }

  /** A chain of `k` turns as written, every reply resolving and every
      chain draw succeeding. A chained timer calls the same callback, so
      every turn of the chain sees the snapshot the first one saw. */
  function ChainAsWritten(s: State, seen: Snapshot, c: Character, k: nat, text: string, o: Outcome): State
    requires o.chainDraw < ContinueChance
    decreases k
  {
    if k == 0 || seen.round >= MaxRounds then s
    else
      var done := TurnAsWritten(s, seen, c, text, o);
      if done.effects == [] then done.next
      else ChainAsWritten(done.next, seen, done.effects[0].speaker, k - 1, text, o)
  }

  /** One turn of a chain as written: it resolves, chains, and counts one round. */
  lemma OneTurnAsWritten(s: State, seen: Snapshot, c: Character, text: string, o: Outcome)
    requires o.chainDraw < ContinueChance
    requires seen.round < MaxRounds
    ensures TurnAsWritten(s, seen, c, text, o).effects != []
    ensures TurnAsWritten(s, seen, c, text, o).next.round == s.round + 1
  {
    var done := TurnAsWritten(s, seen, c, text, o);
    assert done.effects == Chain(Turn(c, seen.round, seen.messages), o.chainDraw, o.delayDraw, o.pickDraw);
  }

  /** A chain of `k > 0` turns as written is one turn, which counts a
      round and chains, then `k - 1` more from the speaker it chained to. */
  lemma ChainAsWrittenUnfold(s: State, seen: Snapshot, c: Character, k: nat, text: string, o: Outcome)
    returns (next: State, successor: Character)
    requires o.chainDraw < ContinueChance
    requires seen.round < MaxRounds && k > 0
    ensures next.round == s.round + 1
    ensures ChainAsWritten(s, seen, c, k, text, o) == ChainAsWritten(next, seen, successor, k - 1, text, o)
  {
    OneTurnAsWritten(s, seen, c, text, o);
    var done := TurnAsWritten(s, seen, c, text, o);
    next, successor := done.next, done.effects[0].speaker;
  }

  /** The ceiling is passed: a reply scheduled at round 19 that resolves
      and chains once leaves the round at 21. */
  lemma CeilingPassedAsWritten(s: State, c: Character, text: string, o: Outcome)
    requires s.round == 19 && o.chainDraw < ContinueChance
    ensures ChainAsWritten(s, SnapshotOf(s), c, 2, text, o).round == 21 > MaxRounds
  {
    var n1, c1 := ChainAsWrittenUnfold(s, SnapshotOf(s), c, 2, text, o);
    var n2, c2 := ChainAsWrittenUnfold(n1, SnapshotOf(s), c1, 1, text, o);
    assert ChainAsWritten(n2, SnapshotOf(s), c2, 0, text, o) == n2;
  }

  /** The reply to a sent message, as written: the timer set by the send
      calls the callback of the render in which the send happened, so the
      turn's history is the transcript from before the message. */
  lemma ReplyMissesMessageAsWritten(s: State, now: nat, delayDraw: Draw, pickDraw: Draw)
    requires !AllWhiteSpace(s.inputValue) && s.round < MaxRounds
    ensures var sent := Submit(s, now, delayDraw, pickDraw);
      var c := sent.effects[|sent.effects| - 1].speaker;
      var turn := StartTurnAsWritten(sent.next, SnapshotOf(s), c).effects[0].turn;
      turn.history == s.messages && |turn.history| == |sent.next.messages| - 1 &&
      sent.next.messages[|s.messages|].content == s.inputValue
  {
  }

  /** The same reply with the live state: its history ends with the
      message just sent. */
  lemma ReplySeesMessage(s: State, now: nat, delayDraw: Draw, pickDraw: Draw)
    requires !AllWhiteSpace(s.inputValue) && s.round < MaxRounds
    ensures var sent := Submit(s, now, delayDraw, pickDraw);
      var c := sent.effects[|sent.effects| - 1].speaker;
      var turn := StartTurn(sent.next, c).effects[0].turn;
      turn.history == sent.next.messages && |turn.history| == |s.messages| + 1 &&
      turn.history[|s.messages|].senderId == UserId && turn.history[|s.messages|].content == s.inputValue
  {
  }

  /** The opening timer as written: its test reads the first render, and
      only cancelling the timer (starting dictation, sending) stops it. */
  function OpenerFireAsWritten(s: State, first: Snapshot): (r: Transition)
    ensures !r.next.openerArmed
    ensures r.effects != [] <==>
      s.openerArmed && |first.messages| == 0 && !first.isListening && |first.inputValue| == 0 &&
      first.round < MaxRounds
    ensures r.effects == [] ==> r.next == s.(openerArmed := false)
    ensures r.effects != [] ==>
      r.next == s.(openerArmed := false, round := s.round + 1, activeCharId := Some("char1"), isTyping := true) &&
      r.effects == [Generate(Turn(Char1, first.round, []))]
  {
    OpenerIsFirst();
    var disarmed := s.(openerArmed := false);
    if s.openerArmed && |first.messages| == 0 && !first.isListening && |first.inputValue| == 0 then
      StartTurnAsWritten(disarmed, first, OpenerSpeaker())
    else Transition(disarmed, [])
  }

  /** As written, text typed but not yet sent does not hold the opener
      back: the aggressive character starts talking over it. */
  lemma OpenerIgnoresTypingAsWritten(topic: string, jobTitle: string, text: string)
    requires text != ""
    ensures var typed := Step(Start(topic, jobTitle, []), Typed(text));
      typed.state.inputValue == text &&
      OpenerFireAsWritten(typed.state, SnapshotOf(Start(topic, jobTitle, []).state)).effects != []
  {
  }

  /** With the live state, the same typed text holds the opener back. */
  lemma OpenerWaitsForTyping(topic: string, jobTitle: string, text: string)
    requires text != ""
    ensures var typed := Step(Start(topic, jobTitle, []), Typed(text));
      typed.state.inputValue == text && Step(typed, OpenerTimer).pending == []
  {
  }
}

=== FILE: types.dfy ===
/**
 * The records the discussion code passes around: a character of the
 * roster and a transcript message. The declaring file (`types.ts`) is not
 * part of this model; the fields below are the ones the code reads and writes.
 */
module Types {

  /** The behavioural archetype of a character. */
  datatype Role = Aggressive | Structured | Detail

  /** The string a role carries at run time (`character.role`). */
  function RoleName(role: Role): string {
    match role
    case Aggressive => "AGGRESSIVE"
    case Structured => "STRUCTURED"
    case Detail => "DETAIL"
  }

  /** A simulated participant. The avatar and colour, used only for
      rendering, are left out. */
  datatype Character = Character(id: string, name: string, role: Role, personality: string)

  /** One transcript entry. `id` is the decimal rendering of the clock
      reading `timestamp`; `kind` is the record's `type` tag. */
  datatype Message = Message(
    id: string,
    senderId: string,
    senderName: string,
    content: string,
    timestamp: int,
    kind: string)

  /** The sender id and display name of the human participant. */
  const UserId := "user"
  const UserName := "你"
}

=== FILE: wrappers.dfy ===
/** An optional value with a default, and a value-or-error. */
module Wrappers {

  /** A value that may be absent (a JavaScript `undefined`/`null`). */
  datatype Option<+T> = None | Some(value: T) {

    /** Returns the wrapped value, or `default` when absent. */
    function GetOr(default: T): T {
      if Some? then value else default
    }
  }

  /** A resolved promise (`Success`) or a rejected one (`Failure`). */
  datatype Result<+R, +E> = Success(value: R) | Failure(error: E)
}
